=== FILE: README.md ===
# Arch-Eleven core, modelled in Dafny

Arch-Eleven is a local voice assistant with two halves.

The Node.js backend accepts WebSocket frames and runs each text input through one turn:
- it sets the activity state to thinking;
- it stores the user message in a bounded conversation memory;
- it classifies the input with a first-match-wins intent router;
- it asks a local LLM backend for a reply, through a model manager and an HTTP adapter;
- it stores and sends the reply, and cuts it into sentence pieces for speech;
- it sends the audio chunks in piece order, then returns to idle.

The browser client (`UIController`) has three concerns:
- it keeps the socket connected, with a linear reconnect backoff;
- it sends trimmed input;
- it plays the received audio chunks one at a time from a FIFO queue.

The model has one Dafny module per source file:

| module | file | models |
|---|---|---|
| `Wrappers` | `wrappers.dfy` | `Option` and `Result` |
| `Js` | `js.dfy` | the JavaScript built-ins the core relies on |
| `Json` | `json.dfy` | parsed JSON values, truthiness and `JSON.stringify` |
| `StateMachine` | `state_manager.dfy` | `StateManager` |
| `Memory` | `memory_store.dfy` | `MemoryStore` |
| `Llama` | `llama_adapter.dfy` | `LlamaAdapter` |
| `Models` | `model_manager.dfy` | `ModelManager` |
| `Router` | `intent_router.dfy` | `IntentRouter` |
| `Speech` | `speech.dfy` | sentence splitting and chunk delivery in `server.js` |
| `Server` | `server.dfy` | the WebSocket handlers of `server.js` |
| `Ui` | `ui.dfy` | `frontend/ui.js` |

Classes whose fields the source updates in place are Dafny classes with `modifies` clauses:
- `StateManager`, `MemoryStore`, `ModelManager`, `IntentRouter`;
- the server, whose sent messages are its `outbox`;
- `UiController`, whose requests to the page, socket, timers and player are its `effects` log.

Pure logic is functions and lemmas: decoding, classification, prompt building, sentence splitting and backoff.

Some parts of the environment become parameters:
- The HTTP exchange with the LLM backend is a function parameter `send`. It maps a request to what `fetch` produced: a response, a timeout abort, or a thrown error.
- Speech synthesis is a parameter `synth`. It gives the audio for piece `i`, or `None` when synthesis failed.
- In the client, whether a chunk's base64 text decodes is a parameter `decodes`.

## Model

| member | source | states |
|---|---|---|
| Js.Trim | backend/server.js:128 | the result is the input with a leading and a trailing run of white space removed, and nothing else; it is empty exactly when the input is all white space, and otherwise neither starts nor ends with white space |
| Js.ToLower | backend/router/intentRouter.js:65 | same length, each character lower-cased (ASCII) |
| Js.ToUpper | frontend/ui.js:253 | same length, each character upper-cased (ASCII) |
| Js.SliceFrom | backend/memory/memoryStore.js:73 | `slice(start)`: a non-negative start is clamped to the length; a negative one counts from the end and is clamped at 0 |
| Js.Length | backend/server.js:129 | `length` counts UTF-16 code units: between the number of characters and twice it, and equal to it exactly when no character is outside the Basic Multilingual Plane |
| Js.Prefix | backend/llm/modelManager.js:121 | `substring(0, n)`: a prefix of the text that fits in `n` code units, and no longer prefix fits |
| Js.PrefixOfPlaneText | backend/router/intentRouter.js:146 | on text without astral characters, the cut is at `min(n, length)` characters |
| Js.Lookup | backend/llm/modelManager.js:44 | `undefined` exactly when no entry has the key; a found value belongs to an entry with that key |
| Js.NatToString | backend/router/intentRouter.js:146 | a non-empty string of decimal digits with no leading zero, whose decimal value is the number |
| Json.Member | backend/llm/llamaAdapter.js:86-101 | only an object has properties, and reading one gives the value stored under that key; reading any other value gives `undefined` |
| Llama.NewAdapter | backend/llm/llamaAdapter.js:7-12 | endpoint copied; `timeout \|\| 30000` and `type \|\| 'http'`, so the timeout is never 0 and the type never empty |
| Llama.BuildPayload | backend/llm/llamaAdapter.js:20-36 | model and prompt copied; `max_tokens` defaults to 500 and `stop` to `[]`; `stream` is false |
| Llama.SendRequest | backend/llm/llamaAdapter.js:48-79 | a 2xx answer gives the outcome of `response.json()`; any other status fails with "HTTP <status>: <statusText>"; a timeout abort becomes "Request timeout"; a thrown `fetch` error keeps its message |
| Llama.ParseResponse | backend/llm/llamaAdapter.js:84-108 | fails exactly on a `null` body, where reading `.response` throws |
| Llama.ParseResponseIsDecode | backend/llm/llamaAdapter.js:84-108 | for every non-null body, the guarded-return chain equals the first-match decoder over the shapes `response`, `content`, `choices[0]`, `text`, falling back to the serialisation |
| Llama.ResponseFieldWins | backend/llm/llamaAdapter.js:86-88 | a truthy `response` field is returned whatever else the body holds |
| Llama.ChoicesBeforeText | backend/llm/llamaAdapter.js:96-103 | with no truthy `response`/`content` and a present `choices[0]`, the choice's text is used even when a top-level `text` exists |
| Llama.EmptyResponseSkipped | backend/llm/llamaAdapter.js:86-93 | a falsy `response: ""` is skipped, so `content` is used |
| Llama.Generate | backend/llm/llamaAdapter.js:19-43 | send errors pass through unchanged; a non-null body is decoded by the first-match decoder; a `null` body fails with the TypeError of reading `.response` |
| Models.RegisterActive | backend/llm/modelManager.js:43-62 | existing adapters are kept and only the active name can change; a known active backend (ollama, llamacpp, generic) with a configuration gets a new adapter; an unconfigured or unknown one adds nothing |
| Models.SelectModel | backend/llm/modelManager.js:79 | `models[key] \|\| models['default']`: absent exactly when neither is configured |
| Models.FallbackResponse | backend/llm/modelManager.js:120-122 | the offline text, then the longest start of the prompt that fits in 100 UTF-16 code units, then `..."` |
| Models.ModelManager.constructor | backend/llm/modelManager.js:11-38 | the loaded (or default) configuration with the adapters `initializeAdapters` registers |
| Models.ModelManager.InitializeAdapters | backend/llm/modelManager.js:43-62 | the configuration is unchanged and the adapters become `RegisterActive` of the old ones |
| Models.ModelManager.SwitchBackend | backend/llm/modelManager.js:163-172 | an unconfigured name fails with "Backend '…' not found" and changes nothing; otherwise the active backend is that name and the adapters are re-initialised |
| Models.ModelManager.AvailableModels | backend/llm/modelManager.js:153-158 | one entry per configured model, in the order the configuration lists them, with the key as id and the model's fields |
| Models.Generate | backend/llm/modelManager.js:69-115 | missing model errors before the adapter is looked up, then a missing adapter errors; a decoded reply is returned; an error mentioning ECONNREFUSED or fetch becomes the fallback text; any other error, including the TypeError of a `null` body, is rethrown unchanged and never looks like a connection failure |
| Models.NullReadIsNotUnreachable | backend/llm/modelManager.js:108-113 | the TypeError of a `null` body mentions neither ECONNREFUSED nor fetch, so it is rethrown |
| Models.UnknownModelUsesDefault | backend/llm/modelManager.js:79 | an unconfigured model name behaves exactly like `default` |
| Models.TimeoutIsRethrown | backend/llm/modelManager.js:104-113 | a timed-out request is rethrown as "Request timeout", not turned into the fallback |
| Models.RefusedConnectionFallsBack | backend/llm/modelManager.js:108-111 | a refused connection yields the fallback text for the prompt |
| Models.DefaultConfigRegistersGeneric | backend/llm/modelManager.js:127-147 | the default configuration registers exactly the `generic` HTTP adapter at localhost:11434 with a 30 s timeout |
| Memory.Retained | backend/memory/memoryStore.js:72-74 | the newest `min(n, 100)` messages, as a suffix of the list |
| Memory.ContextOf | backend/memory/memoryStore.js:87-95 | the total count, and the last `recentCount` messages (all of them for 0, per `slice(-0)`) |
| Memory.ContextEndsWithLatest | backend/server.js:98-101 | the context taken right after a message is stored is non-empty and ends with that message |
| Memory.CountRole | backend/memory/memoryStore.js:134-135 | at most the list length, and zero exactly when no message has the role |
| Memory.CountRoleAppend | backend/memory/memoryStore.js:134-135 | counts add up over consecutive runs of messages, and one message counts 1 under its own role and 0 otherwise |
| Memory.DistinctRolesBounded | backend/memory/memoryStore.js:134-135 | the user and assistant counts together never exceed the total |
| Memory.Filter | backend/memory/memoryStore.js:116-121 | a message is in the result exactly when it is stored and its lower-cased content contains the lower-cased query |
| Memory.FilterAppend | backend/memory/memoryStore.js:118 | filtering keeps stored order: the filter of a concatenation is the concatenation of the filters |
| Memory.MemoryStore.constructor | backend/memory/memoryStore.js:10-15 | a new store is empty |
| Memory.MemoryStore.LoadMemory | backend/memory/memoryStore.js:20-37 | the stored messages, or an empty list when the file is missing or has none |
| Memory.MemoryStore.AddMessage | backend/memory/memoryStore.js:61-80 | returns the new message; the list is the old one plus it, cut to the newest 100, and it is last |
| Memory.MemoryStore.GetContext | backend/memory/memoryStore.js:87-95 | the context of the current messages |
| Memory.MemoryStore.GetHistory | backend/memory/memoryStore.js:100-102 | a sequence equal to the stored messages |
| Memory.MemoryStore.ClearMemory | backend/memory/memoryStore.js:107-111 | the list is empty |
| Memory.MemoryStore.Search | backend/memory/memoryStore.js:116-121 | exactly the matching messages, in stored order |
| Memory.MemoryStore.GetStats | backend/memory/memoryStore.js:133-144 | total, user and assistant counts; the role counts sum to at most the total |
| StateMachine.Parse | backend/state/stateManager.js:9-20 | a name is accepted exactly when it names one of the four states, and then it gives that state |
| StateMachine.ParseName | backend/state/stateManager.js:9 | every state's name is accepted as that state |
| StateMachine.StateManager.constructor | backend/state/stateManager.js:7-11 | idle with an empty history |
| StateMachine.StateManager.SetState | backend/state/stateManager.js:17-36 | an invalid name fails with the "Invalid state" message and changes nothing; a valid one becomes current, and the transition from the previous state is appended and returned; the history stays a path from idle to the current state |
| StateMachine.StateManager.GetState | backend/state/stateManager.js:42-44 | the current state's name, always a valid one |
| StateMachine.StateManager.GetHistory | backend/state/stateManager.js:51-53 | the last `limit` transitions in order (all of them for 0) |
| StateMachine.StateManager.IsState | backend/state/stateManager.js:60-62 | true exactly when the name is that of the current state |
| StateMachine.StateManager.Reset | backend/state/stateManager.js:67-69 | idle, with one transition from the previous state appended |
| Router.SecondWordContained | backend/router/intentRouter.js:73-78 | a match of `\b(a\|b)\b.*\b(c\|d)\b` contains one of the second words |
| Router.DetectIntent | backend/router/intentRouter.js:64-84 | each intent holds exactly when its rule holds on the lower-cased input and no earlier rule does |
| Router.DetectIntentIgnoresCase | backend/router/intentRouter.js:65 | the intent depends only on the lower-cased input |
| Router.WordThenWordAt | backend/router/intentRouter.js:73-78 | a first word, a same-line gap and a second word, each on word boundaries, make the pattern match |
| Router.NoSecondWordNoMatch | backend/router/intentRouter.js:73-78 | without any second word, the pattern does not match |
| Router.DetectLowerCase | backend/router/intentRouter.js:64-84 | on input without capitals, the rules are tested on the input itself |
| Router.CreateScriptFileIsCode | backend/router/intentRouter.js:68-75 | "create a script file" matches the file rule too, yet is code generation: the first rule wins |
| Router.SaveTheFileIsFileOperation | backend/router/intentRouter.js:73-75 | "save the file" is a file operation |
| Router.ShowHistoryIsSystemCommand | backend/router/intentRouter.js:78-80 | "show my history" is a system command |
| Router.PlainTextIsCasualChat | backend/router/intentRouter.js:83 | input matching no rule is casual chat |
| Router.TranscriptAppend | backend/router/intentRouter.js:170-172 | the conversation lines of consecutive runs concatenate |
| Router.HistoryBlock | backend/router/intentRouter.js:168-174 | empty exactly when there is no context; otherwise the header, the lines of the last five messages and a blank line |
| Router.PromptFraming | backend/router/intentRouter.js:164-179 | the prompt starts with the system message and a blank line, and ends with the user turn and `Assistant:`; with no context, nothing lies between them |
| Router.OnlyLastFiveMatter | backend/router/intentRouter.js:170 | messages older than the last five do not change the prompt |
| Router.SummaryLines | backend/router/intentRouter.js:145-146 | one line per message: its 1-based number (as a decimal numeral), its role, and the longest start of its content that fits in 100 UTF-16 code units |
| Router.SummaryExtends | backend/router/intentRouter.js:145-147 | one more message adds one newline-separated line carrying the next number |
| Router.SystemCommandReply | backend/router/intentRouter.js:141-159 | the memory subtype exactly when the lower-cased input mentions memory or history, with the numbered summary; otherwise the not-recognised text |
| Router.Reply | backend/router/intentRouter.js:92-101 | a generated text becomes a reply with the handler's metadata; a generation error propagates unchanged |
| Router.IntentRouter.BuildPrompt | backend/router/intentRouter.js:164-179 | the prompt accumulated line by line equals the prompt function: system message, last-five history block, user turn |
| Router.IntentRouter.Route | backend/router/intentRouter.js:40-59 | the method's outcome equals the routing function |
| Router.RoutingOutcome | backend/router/intentRouter.js:40-159 | the reply carries the detected intent; only code generation requires confirmation; only the two generating handlers can fail; code asks model `code` for 1500 tokens and chat asks `default` for 500; file operations get the file tools' fixed reply |
| Speech.Matches | backend/server.js:123 | the regex matches in order: each is a piece (non-terminators, then terminators); every piece but the last ends with a terminator; none exactly when only terminators remain |
| Speech.MatchesCover | backend/server.js:123 | the matches, glued together, are the rest of the text with its leading terminators dropped |
| Speech.RunIsPiece | backend/server.js:123 | a run of non-terminators followed by the terminators after it is one regex match, ending in a terminator when it has one |
| Speech.Sentences | backend/server.js:123 | `match(…) \|\| [text]` is never empty |
| Speech.SentencesCover | backend/server.js:123 | the pieces glue back to the reply minus its leading terminators; with no match, the single piece is the whole reply, which happens exactly when the reply is all terminators |
| Speech.ChunkFor | backend/server.js:127-141 | a chunk exactly when the trimmed piece is at least 2 UTF-16 code units long and synthesis succeeded; it carries the piece's index, and `isLast` is true only for the final piece |
| Speech.AstralPieceIsSpoken | backend/server.js:127-130 | in "Hello! 😀" the second piece, a single emoji, is two code units long after trimming and is spoken |
| Speech.ChunkResults | backend/server.js:127-142 | one outcome per piece, in piece order |
| Speech.DeliveredInOrder | backend/server.js:146-155 | delivered chunks come in strictly ascending index order; each is its slot's outcome; every success is delivered |
| Speech.TurnChunks | backend/server.js:123-155 | the indices are ascending and below the piece count; `isLast` holds exactly on index n-1; a piece has a chunk exactly when it is long enough and synthesised, so skipping one does not stop later ones |
| Server.AudioEventsDelivered | backend/server.js:146-155 | the `ai_audio_chunk` events are exactly the delivered chunks, in order |
| Server.TurnStates | backend/server.js:91-174 | a successful turn broadcasts thinking, speaking, idle; a failed one thinking, idle |
| Server.SucceededTurnStates | backend/server.js:91-162 | on the success path the states broadcast are thinking, speaking, idle, whatever synthesis returned |
| Server.FailedTurnStates | backend/server.js:91-174 | on the error path the states broadcast are thinking, then idle |
| Server.FailedTurnReportsOnce | backend/server.js:164-173 | a failed turn sends no reply and exactly one error, "AI processing error: " and the message, as its last event |
| Server.SuccessfulTurnHasNoError | backend/server.js:118-162 | a successful turn sends no error, whatever synthesis did, and ends with the idle state |
| Server.Server.BroadcastState | backend/server.js:181-187 | one state event with the current state is sent |
| Server.Server.OnConnect | backend/server.js:39-47 | a new connection is sent the current state |
| Server.Server.DeliverChunks | backend/server.js:146-155 | the loop sends the successful outcomes in order |
| Server.Server.FailTurn | backend/server.js:164-173 | idle is set and broadcast, then one error event; one transition to idle is recorded |
| Server.Server.SpeakReply | backend/server.js:106-162 | speaking is set and broadcast, the reply is sent, then its audio chunks in order, then idle |
| Server.Server.FinishTurn | backend/server.js:103-173 | after routing, the success path stores the reply and speaks it; the error path stores nothing more |
| Server.Server.OpenTurn | backend/server.js:93-101 | thinking is set and broadcast; the user message is stored; the input is routed with the context that now ends with it |
| Server.Server.HandleTextInput | backend/server.js:91-174 | thinking, then either (reply, audio, idle) or (idle, error); memory gains the user message and, on success only, the reply; the state history is thinking→speaking→idle or thinking→idle; the turn always ends idle |
| Server.Server.HandleMessage | backend/server.js:50-81 | a text input runs a turn; `get_state` sends the state and changes nothing; any other type gets "Unknown message type"; a frame that does not parse gets the parser's message |
| Ui.SocketUrl | frontend/ui.js:70-78 | `wss://` for an https page and `ws://` otherwise, followed directly by the host, and nothing else: localhost:3113 for a missing host or a file page, otherwise the page's host |
| Ui.BackoffIsLinear | frontend/ui.js:170-183 | from count `a`, the k-th consecutive failure waits 2000·(a+k+1) ms, and at most 5−a reconnections are ever scheduled |
| Ui.FreshBackoff | frontend/ui.js:170-183 | from a fresh connection, failures wait 2, 4, 6, 8 and 10 s, then give up |
| Ui.StateGate | frontend/ui.js:252-261 | the label is always the upper-cased state; the animator is told exactly when present and no audio plays |
| Ui.FirstPlayableIsFirst | frontend/ui.js:287-360 | every queued chunk ahead of the first playable one is skipped, and that one plays |
| Ui.ChunkPlays | frontend/ui.js:308-360 | a chunk reaches the player exactly when audio is enabled and it decodes |
| Ui.AtMostOneStarts | frontend/ui.js:287-303 | one run of queue processing starts at most one chunk: the first playable one |
| Ui.SkippedThenPlayed | frontend/ui.js:287-303 | after a run of chunks that cannot play, the first playable chunk is the one chunk started |
| Ui.UiController.constructor | frontend/ui.js:6-34 | audio on, empty queue, not playing; a socket is opened, or a reconnection is scheduled when construction throws |
| Ui.UiController.Connect | frontend/ui.js:69-95 | a socket is opened at the page's address; when construction throws, disconnected is shown and a reconnection is scheduled |
| Ui.UiController.HandleOpen | frontend/ui.js:100-105 | the counter resets to 0; connected is shown and announced |
| Ui.UiController.HandleError | frontend/ui.js:151-154 | disconnected is shown; nothing else changes |
| Ui.UiController.HandleClose | frontend/ui.js:159-165 | disconnected, the state shown as offline, a note, then a reconnection attempt |
| Ui.UiController.ScheduleReconnect | frontend/ui.js:170-183 | at the maximum, only the give-up note; otherwise the counter grows by one and a timer is armed for 2000 ms times the new count; the counter never exceeds 5 |
| Ui.UiController.SendMessage | frontend/ui.js:188-209 | nothing for white-space-only input or a closed socket; otherwise the trimmed text is shown, sent as `text_input`, and the input cleared |
| Ui.UiController.UpdateState | frontend/ui.js:252-261 | the label is set; the animator is set only while no audio plays |
| Ui.UiController.ToggleAudio | frontend/ui.js:58-63 | audio flips and "Audio enabled/disabled" is announced |
| Ui.UiController.QueueAudioChunk | frontend/ui.js:273-282 | with audio disabled, the queue is unchanged; otherwise the chunk joins the tail; the queue stays FIFO |
| Ui.UiController.CleanupAudio | frontend/ui.js:365-370 | not playing; the animator returns to idle |
| Ui.UiController.PlayAudio | frontend/ui.js:308-360 | playing exactly when audio is enabled and the chunk decodes; a decode failure is cleaned up at once |
| Ui.UiController.ProcessAudioQueue | frontend/ui.js:287-303 | nothing while playing; otherwise chunks are taken from the head, in order, up to and including the first that starts, and it is playing exactly when one started |
| Ui.UiController.DrainQueue | frontend/ui.js:289-302 | the loop of re-entrant `processAudioQueue` calls takes exactly the chunks up to the first playable one, in FIFO order |
| Ui.UiController.OnAudioEnded | frontend/ui.js:297-352 | the end of a chunk cleans up when nothing is queued; otherwise the next chunks are processed in order |
| Ui.UiController.OnPlaybackRejected | frontend/ui.js:335-340 | a refused playback shows a note, cleans up and moves on to the next chunk |
| Ui.UiController.HandleServerMessage | frontend/ui.js:110-146 | states go to the label gate; replies go to the chat; chunks go to the queue; errors get an "Error: " note; info messages a note; other types change nothing |

## Left out

- Timestamps (`Date.now()`, `toLocaleTimeString`) and the random message ids are not modelled. So `getContext`'s `conversationStart` and `getStats`' `oldestMessage`/`newestMessage` are absent from the model.
- The generation temperature is not modelled. It is a floating-point value that is passed along unchanged.
- File persistence is not modelled:
  - `saveMemory` is left out.
  - The reading side of `loadMemory` and `loadConfig` is left out; their outcomes are constructor and method parameters.
  - `loadSystemPrompt` is left out; the prompt it loads is never used by `buildPrompt`.
- The HTTP call is the parameter `send`. The timer and AbortController inside `sendRequest` are not modelled, nor is `testConnection`, which is one more HTTP round trip.
- Synthesis in `handleTextInput` starts all pieces in parallel. It is modelled as per-piece outcomes given in advance and consumed by the ordered delivery loop. An exception from the speech wrapper outside a piece is not modelled.
- The text-to-speech and speech-to-text HTTP wrappers, the Python voice service, `frontend/bubble.js` and the rest of the file tools are not part of this model. The file-operation handler's fixed stub reply is a constant.
- Js.ToLower, Js.ToUpper: map only ASCII letters, where `toLowerCase` and `toUpperCase` map all of Unicode.
- JSON numbers are integers.
- Js.Prefix: when `substring(0, 100)` cuts inside a surrogate pair, the source keeps a lone high surrogate. A Dafny `char` cannot hold one, so the model stops before the pair. This concerns Models.FallbackResponse and Router.SummaryLines.
- Js.Lookup: reads only an object's own properties. In JavaScript, `obj[key]` also finds properties inherited from `Object.prototype`, such as `toString` and `constructor`; such a name gives `undefined` here. Js.Lookup also assumes distinct keys, as a parsed object has; on a list that repeats a key it finds the first entry.
- Models.SelectModel: a model name that is an inherited property name, such as `constructor`, selects that inherited value in the source (`Object`, whose `name` is "Object"). The model selects `default` for it instead.
- Models.ModelManager.SwitchBackend: `switchBackend('toString')` (or any other inherited name) succeeds in the source. The active backend becomes that name, and a later `generate` fails with "adapter.generate is not a function". The model reports "Backend 'toString' not found" and changes nothing.
- Models.ModelManager.AvailableModels: lists models in the order the configuration lists them. `Object.keys` puts integer-like keys first, in ascending order. The model also assumes the configuration has distinct model keys, as a parsed object does.
- Models.ModelManager.constructor, Memory.MemoryStore.constructor: the source starts `loadConfig` and `loadMemory` without awaiting them. A turn that arrives before loading finishes meets a `null` configuration (a TypeError), or has its stored messages replaced when loading completes. The model's constructors receive the loaded value at once.
- Json.Serialize: writes an object's properties in the order the reply listed them. JavaScript lists integer-like keys first, in ascending order, so `{"b":1,"2":2}` is written `{"2":2,"b":1}` by the source.
- Server.Server.HandleMessage: the `content` of a `text_input` frame is assumed to be a string, as the client always sends. The source passes any value on unchecked. A missing or non-string content would be stored as the user message and then make `toLowerCase` throw, failing the turn. On later turns it would also make `search` and the memory summary throw.
- Server.Server.HandleMessage: frames are handled one at a time, each to completion. In the source the message handler is asynchronous and nothing serialises it. A `get_state` sent during a turn can therefore report thinking or speaking. A second `text_input` can interleave its state events, replies and memory writes with those of the first turn. Then `TurnStates` no longer describes the outbox turn by turn.
- Models.Generate: a decoded reply that is not a string is carried as its JSON serialisation. The source passes the raw value on, so `response.text` is then a non-string, such as the number 42 for `{"response": 42}`. Splitting it into sentences then throws inside the speech step. The source swallows that error, so the turn sends the reply, no `ai_audio_chunk` and ends idle. The model instead speaks the serialised text, so for "42" it sends one chunk. The non-string is also stored as the assistant message. On later turns, `search` and the memory summary then throw in the source, where the model's stored string does not.
- Only one WebSocket connection is modelled, so its `outbox` is the message log. The `/health` endpoint, the server's start-up and its shutdown are not modelled.
- The client's `ai_audio` legacy path is not modelled, nor are DOM styling, the textarea auto-resize and scrolling.
- A message the client cannot parse is only logged, so it has no effect and is not modelled. The zero-delay timer after `queueAudioChunk` is a later, separate call of `ProcessAudioQueue`.

=== FILE: intent_router.dfy ===
/**
 * The intent router (`IntentRouter`): a first-match-wins classifier over the lower-cased
 * input, the prompt builder, the memory summary of the system command, and the dispatch
 * that picks the model, the generation parameters and the reply metadata per intent.
 */
module Router {
  import opened Wrappers
  import Js
  import Memory
  import Models
  import Llama

  datatype Intent = CodeGeneration | FileOperation | SystemCommand | CasualChat

  /** The intent's name in reply metadata. */
  function IntentName(i: Intent): string {
    match i
    case CodeGeneration => "code_generation"
    case FileOperation => "file_operation"
    case SystemCommand => "system_command"
    case CasualChat => "casual_chat"
  }

  // ---------------------------------------------------------------- regular expressions

  /** `\w`: the characters a word boundary `\b` looks at. */
  predicate IsWordChar(c: char) {
    ('a' <= c <= 'z') || ('A' <= c <= 'Z') || ('0' <= c <= '9') || c == '_'
  }

  /** The characters `.` does not match. */
  predicate IsLineTerminator(c: char) {
    c == '\n' || c == '\r' || c == '\U{2028}' || c == '\U{2029}'
  }

  predicate WordCharAt(s: string, k: int) {
    0 <= k < |s| && IsWordChar(s[k])
  }

  /** `\b` at position `k`: exactly one of the characters around it is a word character. */
  predicate Boundary(s: string, k: int) {
    WordCharAt(s, k - 1) != WordCharAt(s, k)
  }

  /** `\bw\b` matches at position `i`. */
  predicate WordAt(s: string, i: nat, w: string) {
    Js.OccursAt(s, w, i) && Boundary(s, i) && Boundary(s, i + |w|)
  }

  /** `.*` matches `s[a..b]`: no line terminator in between. */
  predicate LineFree(s: string, a: nat, b: nat) {
    b <= |s| && forall k: nat | a <= k < b :: !IsLineTerminator(s[k])
  }

  /** `\b(seconds)\b` matches at position `j`. */
  predicate SecondWordAt(s: string, j: nat, seconds: seq<string>) {
    exists w2 | w2 in seconds :: WordAt(s, j, w2)
  }

  /** `.*\b(seconds)\b` matches from position `from`: a second word later on the same line. */
  predicate FollowedOnLine(s: string, from: nat, seconds: seq<string>) {
    exists j: nat | from <= j <= |s| :: LineFree(s, from, j) && SecondWordAt(s, j, seconds)
  }

  /** The whole two-word pattern matches with its first word at position `i`. */
  predicate MatchAt(s: string, i: nat, firsts: seq<string>, seconds: seq<string>) {
    exists w1 | w1 in firsts :: WordAt(s, i, w1) && FollowedOnLine(s, i + |w1|, seconds)
  }

  /**
   * `/\b(first alternatives)\b.*\b(second alternatives)\b/` finds a match in `s`: a first
   * word, then on the same line at or after its end, a second word.
   */
  predicate WordThenWord(s: string, firsts: seq<string>, seconds: seq<string>) {
    exists i: nat | i <= |s| :: MatchAt(s, i, firsts, seconds)
  }

  /** A match of the two-word pattern contains one of the second words. */
  lemma SecondWordContained(s: string, firsts: seq<string>, seconds: seq<string>)
    requires WordThenWord(s, firsts, seconds)
    ensures exists w2 | w2 in seconds :: Js.Contains(s, w2)
  {
    var i: nat :| i <= |s| && MatchAt(s, i, firsts, seconds);
    var w1 :| w1 in firsts && WordAt(s, i, w1) && FollowedOnLine(s, i + |w1|, seconds);
    var j: nat :| i + |w1| <= j <= |s| && LineFree(s, i + |w1|, j) && SecondWordAt(s, j, seconds);
    var w2 :| w2 in seconds && WordAt(s, j, w2);
    assert Js.OccursAt(s, w2, j);
  }

  const FileVerbs: seq<string> := ["save", "write", "create", "generate"]
  const FileNouns: seq<string> := ["file", "document"]
  const ShowVerbs: seq<string> := ["show", "list", "display"]
  const ShowNouns: seq<string> := ["memory", "history", "files"]

  /** The code-generation rule: `create` together with `website`, `app` or `script`. */
  predicate CodeRule(s: string) {
    Js.Contains(s, "create") && (Js.Contains(s, "website") || Js.Contains(s, "app") || Js.Contains(s, "script"))
  }

  predicate FileRule(s: string) {
    WordThenWord(s, FileVerbs, FileNouns)
  }

  predicate SystemRule(s: string) {
    WordThenWord(s, ShowVerbs, ShowNouns)
  }

  /** `detectIntent(input)`: the first rule that holds on the lower-cased input. */
  function DetectIntent(input: string): (r: Intent)
    ensures r == CodeGeneration <==> CodeRule(Js.ToLower(input))
    ensures r == FileOperation <==> !CodeRule(Js.ToLower(input)) && FileRule(Js.ToLower(input))
    ensures r == SystemCommand <==>
      !CodeRule(Js.ToLower(input)) && !FileRule(Js.ToLower(input)) && SystemRule(Js.ToLower(input))
    ensures r == CasualChat <==>
      !CodeRule(Js.ToLower(input)) && !FileRule(Js.ToLower(input)) && !SystemRule(Js.ToLower(input))
  {
    var lower := Js.ToLower(input);
    if CodeRule(lower) then CodeGeneration
    else if FileRule(lower) then FileOperation
    else if SystemRule(lower) then SystemCommand
    else CasualChat
  }

  /** The classification depends only on the lower-cased input. */
  lemma DetectIntentIgnoresCase(input: string)
    ensures DetectIntent(Js.ToLower(input)) == DetectIntent(input)
  {
    Js.ToLowerIdempotent(input);
  }

  /** The pattern matches when its parts are found at `i` and `j` with nothing but `.` between. */
  lemma WordThenWordAt(s: string, firsts: seq<string>, seconds: seq<string>, i: nat, j: nat, w1: string, w2: string)
    requires w1 in firsts && w2 in seconds
    requires WordAt(s, i, w1) && i + |w1| <= j && LineFree(s, i + |w1|, j) && WordAt(s, j, w2)
    ensures WordThenWord(s, firsts, seconds)
  {
    assert SecondWordAt(s, j, seconds);
    assert FollowedOnLine(s, i + |w1|, seconds);
    assert MatchAt(s, i, firsts, seconds);
  }

  /** Without any of the second words, the two-word pattern cannot match. */
  lemma NoSecondWordNoMatch(s: string, firsts: seq<string>, seconds: seq<string>)
    requires forall w | w in seconds :: !Js.Contains(s, w)
    ensures !WordThenWord(s, firsts, seconds)
  {
    if WordThenWord(s, firsts, seconds) {
      SecondWordContained(s, firsts, seconds);
    }
  }

  /** On an input without capitals, the rules are tested on the input itself. */
  lemma DetectLowerCase(s: string)
    requires Js.NoCapitals(s)
    ensures DetectIntent(s) ==
      if CodeRule(s) then CodeGeneration
      else if FileRule(s) then FileOperation
      else if SystemRule(s) then SystemCommand
      else CasualChat
  {
    Js.ToLowerUnchanged(s);
  }

  lemma CreateScriptFileRules()
    ensures Js.NoCapitals("create a script file")
    ensures CodeRule("create a script file") && FileRule("create a script file")
  {
    CreateScriptCodeRule();
    CreateScriptFileRule();
  }

  lemma CreateScriptCodeRule()
    ensures Js.NoCapitals("create a script file") && CodeRule("create a script file")
  {
    var s := "create a script file";
    assert Js.NoCapitals(s);
    assert Js.OccursAt(s, "create", 0) && Js.OccursAt(s, "script", 9);
  }

  lemma CreateScriptFileRule()
    ensures FileRule("create a script file")
  {
    var s := "create a script file";
    assert WordAt(s, 0, "create") && WordAt(s, 16, "file") && LineFree(s, 6, 16);
    WordThenWordAt(s, FileVerbs, FileNouns, 0, 16, "create", "file");
  }

  /** "create a script file" is code generation, although the file rule also matches. */
  lemma CreateScriptFileIsCode()
    ensures FileRule("create a script file")
    ensures DetectIntent("create a script file") == CodeGeneration
  {
    CreateScriptFileRules();
    DetectLowerCase("create a script file");
  }

  lemma SaveTheFileRules()
    ensures Js.NoCapitals("save the file")
    ensures !CodeRule("save the file") && FileRule("save the file")
  {
    var s := "save the file";
    assert Js.NoCapitals(s);
    Js.NotContainedWhenHeadAbsent(s, "create");
    assert WordAt(s, 0, "save") && WordAt(s, 9, "file") && LineFree(s, 4, 9);
    WordThenWordAt(s, FileVerbs, FileNouns, 0, 9, "save", "file");
  }

  /** "save the file" is a file operation. */
  lemma SaveTheFileIsFileOperation()
    ensures DetectIntent("save the file") == FileOperation
  {
    SaveTheFileRules();
    DetectLowerCase("save the file");
  }

  lemma ShowHistoryRules()
    ensures Js.NoCapitals("show my history")
    ensures !CodeRule("show my history") && !FileRule("show my history") && SystemRule("show my history")
  {
    var s := "show my history";
    assert Js.NoCapitals(s);
    Js.NotContainedWhenHeadAbsent(s, "create");
    Js.NotContainedWhenHeadAbsent(s, "file");
    Js.NotContainedWhenHeadAbsent(s, "document");
    NoSecondWordNoMatch(s, FileVerbs, FileNouns);
    assert WordAt(s, 0, "show") && WordAt(s, 8, "history") && LineFree(s, 4, 8);
    WordThenWordAt(s, ShowVerbs, ShowNouns, 0, 8, "show", "history");
  }

  /** "show my history" is a system command. */
  lemma ShowHistoryIsSystemCommand()
    ensures DetectIntent("show my history") == SystemCommand
  {
    ShowHistoryRules();
    DetectLowerCase("show my history");
  }

  lemma PlainTextRules()
    ensures Js.NoCapitals("yes please")
    ensures !CodeRule("yes please") && !FileRule("yes please") && !SystemRule("yes please")
  {
    var s := "yes please";
    assert Js.NoCapitals(s);
    Js.NotContainedWhenHeadAbsent(s, "create");
    Js.NotContainedWhenHeadAbsent(s, "file");
    Js.NotContainedWhenHeadAbsent(s, "document");
    Js.NotContainedWhenHeadAbsent(s, "memory");
    Js.NotContainedWhenHeadAbsent(s, "history");
    Js.NotContainedWhenHeadAbsent(s, "files");
    NoSecondWordNoMatch(s, FileVerbs, FileNouns);
    NoSecondWordNoMatch(s, ShowVerbs, ShowNouns);
  }

  /** An input that matches no rule is casual chat. */
  lemma PlainTextIsCasualChat()
    ensures DetectIntent("yes please") == CasualChat
  {
    PlainTextRules();
    DetectLowerCase("yes please");
  }

  // ---------------------------------------------------------------- prompt

  /** One conversation line of the prompt. */
  function Line(m: Memory.Message): string {
    m.role + ": " + m.content + "\n"
  }

  /** The conversation lines of `ms`, in order. */
  function Transcript(ms: seq<Memory.Message>): string {
    if ms == [] then "" else Transcript(ms[..|ms| - 1]) + Line(ms[|ms| - 1])
  }

  /** The transcript of consecutive runs is the concatenation of their transcripts. */
  lemma {:induction false} TranscriptAppend(a: seq<Memory.Message>, b: seq<Memory.Message>)
    ensures Transcript(a + b) == Transcript(a) + Transcript(b)
  {
    if b == [] {
      assert a + b == a;
    } else {
      var c := b[..|b| - 1];
      var last := Line(b[|b| - 1]);
      assert (a + b)[..|a + b| - 1] == a + c;
      assert (a + b)[|a + b| - 1] == b[|b| - 1];
      assert Transcript(a + b) == Transcript(a + c) + last;
      TranscriptAppend(a, c);
      assert Transcript(a) + Transcript(c) + last == Transcript(a) + (Transcript(c) + last);
    }
  }

  /** How many context messages the prompt quotes. */
  const PromptWindow: int := 5

  /** The conversation block: a header, the last five messages, a blank line; nothing when empty. */
  function HistoryBlock(recent: seq<Memory.Message>): (h: string)
    ensures recent == [] <==> h == []
    ensures recent != [] ==>
      h == "Recent conversation:\n" + Transcript(recent[|recent| - Js.Min(PromptWindow, |recent|)..]) + "\n"
  {
    if recent == [] then "" else "Recent conversation:\n" + Transcript(Js.SliceFrom(recent, -PromptWindow)) + "\n"
  }

  /** The prompt `buildPrompt` assembles. */
  function Prompt(input: string, recent: seq<Memory.Message>, systemMessage: string): string {
    systemMessage + "\n\n" + HistoryBlock(recent) + "User: " + input + "\nAssistant:"
  }

  /** The prompt opens with the system message and closes with the user turn. */
  lemma PromptFraming(input: string, recent: seq<Memory.Message>, systemMessage: string)
    ensures var p := Prompt(input, recent, systemMessage);
      && Js.OccursAt(p, systemMessage + "\n\n", 0)
      && Js.OccursAt(p, "User: " + input + "\nAssistant:", |p| - |"User: " + input + "\nAssistant:"|)
    ensures recent == [] ==> Prompt(input, recent, systemMessage) == systemMessage + "\n\nUser: " + input + "\nAssistant:"
  {
    Js.FramedBy(systemMessage + "\n\n", HistoryBlock(recent), "User: " + input + "\nAssistant:");
  }

  /** Messages older than the last five do not reach the prompt. */
  lemma OnlyLastFiveMatter(input: string, recent: seq<Memory.Message>, systemMessage: string)
    requires |recent| >= PromptWindow
    ensures Prompt(input, recent, systemMessage) == Prompt(input, recent[|recent| - PromptWindow..], systemMessage)
  {
    HistoryBlockWindow(recent);
  }

  lemma HistoryBlockWindow(recent: seq<Memory.Message>)
    requires |recent| >= PromptWindow
    ensures HistoryBlock(recent) == HistoryBlock(recent[|recent| - PromptWindow..])
  {
    var last := recent[|recent| - PromptWindow..];
    assert recent[|recent| - Js.Min(PromptWindow, |recent|)..] == last;
    assert last[|last| - Js.Min(PromptWindow, |last|)..] == last;
    assert HistoryBlock(recent) == "Recent conversation:\n" + Transcript(last) + "\n";
  }

  // ---------------------------------------------------------------- replies

  /** The reply metadata; absent properties are `None`, an absent flag is `false`. */
  datatype Metadata = Metadata(intent: Intent, model: Option<string>, requiresConfirmation: bool, subtype: Option<string>)

  /** What `route` resolves to. */
  datatype Routed = Routed(text: string, metadata: Metadata)

  const CasualSystemMessage: string := "You are a helpful and friendly AI assistant."
  const CodeSystemMessage: string :=
    "You are an expert programmer. Generate clean, well-commented code. Ask for confirmation before creating files."
  /** The fixed reply of the file tools' request handler. */
  const FileOperationReply: string :=
    "File operations require explicit confirmation. What would you like me to create?"
  const UnknownSystemCommandReply: string := "System command not recognized."

  /** One summary line: 1-based number, role, and the content cut to 100 characters. */
  function SummaryLine(index: nat, m: Memory.Message): string {
    Js.NatToString(index + 1) + ". [" + m.role + "]: " + Js.Prefix(m.content, 100) + "..."
  }

  function SummaryLines(ms: seq<Memory.Message>): (lines: seq<string>)
    ensures |lines| == |ms|
    ensures forall i :: 0 <= i < |ms| ==> lines[i] == SummaryLine(i, ms[i])
  {
    seq(|ms|, i requires 0 <= i < |ms| => SummaryLine(i, ms[i]))
  }

  /** The summary of the context messages, one numbered line each. */
  function Summary(ms: seq<Memory.Message>): string {
    Js.Join(SummaryLines(ms), "\n")
  }

  /** A further message adds one line carrying the next number. */
  lemma SummaryExtends(ms: seq<Memory.Message>, m: Memory.Message)
    requires ms != []
    ensures Summary(ms + [m]) == Summary(ms) + "\n" + SummaryLine(|ms|, m)
  {
    var lines := SummaryLines(ms + [m]);
    assert lines[..|lines| - 1] == SummaryLines(ms);
  }

  /** `handleSystemCommand`: the memory summary, or the not-recognised text. */
  function SystemCommandReply(input: string, context: Memory.Context): (r: Routed)
    ensures r.metadata.intent == SystemCommand && !r.metadata.requiresConfirmation && r.metadata.model.None?
    ensures r.metadata.subtype.Some? <==>
      Js.Contains(Js.ToLower(input), "memory") || Js.Contains(Js.ToLower(input), "history")
    ensures r.metadata.subtype.None? ==> r.text == UnknownSystemCommandReply
    ensures r.metadata.subtype.Some? ==> r.text == "Recent conversation:\n" + Summary(context.recentMessages)
  {
    var lower := Js.ToLower(input);
    if Js.Contains(lower, "memory") || Js.Contains(lower, "history") then
      Routed("Recent conversation:\n" + Summary(context.recentMessages), Metadata(SystemCommand, None, false, Some("memory")))
    else
      Routed(UnknownSystemCommandReply, Metadata(SystemCommand, None, false, None))
  }

  /** The generation request of the casual-chat handler. */
  function CasualRequest(input: string, context: Memory.Context): Models.Request {
    Models.Request(Some("default"), Prompt(input, context.recentMessages, CasualSystemMessage), Some(500), None)
  }

  /** The generation request of the code-generation handler. */
  function CodeRequest(input: string, context: Memory.Context): Models.Request {
    Models.Request(Some("code"), Prompt(input, context.recentMessages, CodeSystemMessage), Some(1500), None)
  }

  /** A generated text under the handler's metadata; a generation error propagates. */
  function Reply(generated: Result<string, string>, metadata: Metadata): (r: Result<Routed, string>)
    ensures r.Ok? <==> generated.Ok?
    ensures r.Ok? ==> r.value == Routed(generated.value, metadata)
    ensures r.Err? ==> r.error == generated.error
  {
    match generated
    case Ok(text) => Ok(Routed(text, metadata))
    case Err(e) => Err(e)
  }

  /** The request and the reply metadata of the two generating handlers. */
  function GenerationRequest(intent: Intent, input: string, context: Memory.Context): Models.Request {
    if intent == CodeGeneration then CodeRequest(input, context) else CasualRequest(input, context)
  }

  function GenerationMetadata(intent: Intent): Metadata {
    if intent == CodeGeneration then Metadata(CodeGeneration, Some("code"), true, None)
    else Metadata(CasualChat, Some("default"), false, None)
  }

  /**
   * What `route(input, context)` resolves to on a model manager with configuration `config`
   * and registered `adapters`: the handler of the detected intent. Code generation and
   * casual chat both generate, each with its own request and metadata.
   */
  function Routing(config: Models.Config, adapters: map<string, Llama.Adapter>, input: string, context: Memory.Context,
                   send: Llama.Request -> Llama.Exchange): Result<Routed, string>
  {
    var intent := DetectIntent(input);
    if intent == FileOperation then Ok(Routed(FileOperationReply, Metadata(FileOperation, None, false, None)))
    else if intent == SystemCommand then Ok(SystemCommandReply(input, context))
    else Reply(Models.Generate(config, adapters, GenerationRequest(intent, input, context), send), GenerationMetadata(intent))
  }

  class IntentRouter {
    const modelManager: Models.ModelManager

    constructor (modelManager: Models.ModelManager)
      ensures this.modelManager == modelManager
    {
      this.modelManager := modelManager;
    }

    /** `buildPrompt(userInput, context, systemMessage)`, accumulating the prompt line by line. */
    method BuildPrompt(input: string, context: Memory.Context, systemMessage: string) returns (prompt: string)
      ensures prompt == Prompt(input, context.recentMessages, systemMessage)
    {
      prompt := systemMessage + "\n\n";
      if |context.recentMessages| > 0 {
        prompt := prompt + "Recent conversation:\n";
        var recent := Js.SliceFrom(context.recentMessages, -PromptWindow);
        ghost var head := prompt;
        for i := 0 to |recent|
          invariant prompt == head + Transcript(recent[..i])
        {
          assert recent[..i + 1][..i] == recent[..i];
          prompt := prompt + Line(recent[i]);
        }
        assert recent[..|recent|] == recent;
        prompt := prompt + "\n";
      }
      prompt := prompt + "User: " + input + "\nAssistant:";
    }

    /** `route(userInput, context)`. */
    method Route(input: string, context: Memory.Context, send: Llama.Request -> Llama.Exchange)
      returns (r: Result<Routed, string>)
      ensures r == Routing(modelManager.config, modelManager.adapters, input, context, send)
    {
      var intent := DetectIntent(input);
      match intent
      case CodeGeneration =>
        var prompt := BuildPrompt(input, context, CodeSystemMessage);
        var text := Models.Generate(modelManager.config, modelManager.adapters, Models.Request(Some("code"), prompt, Some(1500), None), send);
        r := Reply(text, Metadata(CodeGeneration, Some("code"), true, None));
      case FileOperation =>
        r := Ok(Routed(FileOperationReply, Metadata(FileOperation, None, false, None)));
      case SystemCommand =>
        r := Ok(SystemCommandReply(input, context));
      case CasualChat =>
        var prompt := BuildPrompt(input, context, CasualSystemMessage);
        var text := Models.Generate(modelManager.config, modelManager.adapters, Models.Request(Some("default"), prompt, Some(500), None), send);
        r := Reply(text, Metadata(CasualChat, Some("default"), false, None));
    }
  }

  /**
   * The routed reply carries the detected intent; only code generation asks for
   * confirmation; only the two generating handlers can fail, code generation with model
   * `code` and 1500 tokens, casual chat with model `default` and 500 tokens.
   */
  lemma RoutingOutcome(config: Models.Config, adapters: map<string, Llama.Adapter>, input: string, context: Memory.Context,
                       send: Llama.Request -> Llama.Exchange)
    ensures var r := Routing(config, adapters, input, context, send);
      && (r.Ok? ==> r.value.metadata.intent == DetectIntent(input))
      && (r.Ok? ==> (r.value.metadata.requiresConfirmation <==> DetectIntent(input) == CodeGeneration))
      && (r.Err? ==> DetectIntent(input) == CodeGeneration || DetectIntent(input) == CasualChat)
      && (DetectIntent(input) == CodeGeneration ==>
            r == Reply(Models.Generate(config, adapters, CodeRequest(input, context), send), Metadata(CodeGeneration, Some("code"), true, None)))
      && (DetectIntent(input) == CasualChat ==>
            r == Reply(Models.Generate(config, adapters, CasualRequest(input, context), send), Metadata(CasualChat, Some("default"), false, None)))
      && (DetectIntent(input) == FileOperation ==>
            r == Ok(Routed(FileOperationReply, Metadata(FileOperation, None, false, None))))
      && (DetectIntent(input) == SystemCommand ==> r == Ok(SystemCommandReply(input, context)))
  {
  }
}

=== FILE: js.dfy ===
/**
 * The few JavaScript built-ins the core relies on, with their meaning spelled out:
 * `String.prototype.trim`, `toLowerCase` and `toUpperCase` (ASCII letters), `includes`,
 * `substring(0, n)`, `Array.prototype.slice(start)`, `join`, number-to-string conversion,
 * and property lookup on a plain object (an association list of key/value pairs).
 */
module Js {
  import opened Wrappers

  function Min(a: int, b: int): int { if a <= b then a else b }
  function Max(a: int, b: int): int { if a >= b then a else b }

  // ---------------------------------------------------------------- trim

  /** White space and line terminators, the characters `trim` removes. */
  predicate IsWhitespace(c: char) {
    || c == '\t' || c == '\n' || c == '\U{000B}' || c == '\U{000C}' || c == '\r' || c == ' '
    || c == '\U{00A0}' || c == '\U{1680}' || ('\U{2000}' <= c <= '\U{200A}')
    || c == '\U{2028}' || c == '\U{2029}' || c == '\U{202F}' || c == '\U{205F}'
    || c == '\U{3000}' || c == '\U{FEFF}'
  }

  ghost predicate AllWhitespace(s: string) {
    forall i :: 0 <= i < |s| ==> IsWhitespace(s[i])
  }

  /** The first position at or after `i` that does not hold white space. */
  function SkipSpace(s: string, i: nat): (j: nat)
    requires i <= |s|
    ensures i <= j <= |s|
    ensures forall k :: i <= k < j ==> IsWhitespace(s[k])
    ensures j == |s| || !IsWhitespace(s[j])
    decreases |s| - i
  {
    if i < |s| && IsWhitespace(s[i]) then SkipSpace(s, i + 1) else i
  }

  /** The end of `s[lo..hi]` once its trailing white space is dropped. */
  function SkipSpaceBack(s: string, lo: nat, hi: nat): (k: nat)
    requires lo <= hi <= |s|
    ensures lo <= k <= hi
    ensures forall m :: k <= m < hi ==> IsWhitespace(s[m])
    ensures k == lo || !IsWhitespace(s[k - 1])
    decreases hi - lo
  {
    if lo < hi && IsWhitespace(s[hi - 1]) then SkipSpaceBack(s, lo, hi - 1) else hi
  }

  /** `String.prototype.trim`: `s` without leading and trailing white space. */
  function Trim(s: string): (r: string)
    ensures r == [] <==> AllWhitespace(s)
    ensures r != [] ==> !IsWhitespace(r[0]) && !IsWhitespace(r[|r| - 1])
    ensures exists a, b :: 0 <= a <= b <= |s| && r == s[a..b] && AllWhitespace(s[..a]) && AllWhitespace(s[b..])
  {
    var a := SkipSpace(s, 0);
    var b := SkipSpaceBack(s, a, |s|);
    assert AllWhitespace(s[..a]) by {
      forall i | 0 <= i < a ensures IsWhitespace(s[..a][i]) { assert s[..a][i] == s[i]; }
    }
    assert AllWhitespace(s[b..]) by {
      forall i | 0 <= i < |s| - b ensures IsWhitespace(s[b..][i]) { assert s[b..][i] == s[b + i]; }
    }
    s[a..b]
  }

  // ---------------------------------------------------------------- case

  /** `toLowerCase` on one character; letters outside ASCII are not modelled. */
  function LowerChar(c: char): (d: char)
    ensures !('A' <= d <= 'Z')
    ensures !('A' <= c <= 'Z') ==> d == c
    ensures 'A' <= c <= 'Z' ==> d as int == c as int + 32
  {
    if 'A' <= c <= 'Z' then (c as int + 32) as char else c
  }

  function ToLower(s: string): (r: string)
    ensures |r| == |s|
    ensures forall i :: 0 <= i < |s| ==> r[i] == LowerChar(s[i])
  {
    seq(|s|, i requires 0 <= i < |s| => LowerChar(s[i]))
  }

  /** `toUpperCase` on one character; letters outside ASCII are not modelled. */
  function UpperChar(c: char): (d: char)
    ensures !('a' <= d <= 'z')
    ensures !('a' <= c <= 'z') ==> d == c
    ensures 'a' <= c <= 'z' ==> d as int == c as int - 32
  {
    if 'a' <= c <= 'z' then (c as int - 32) as char else c
  }

  function ToUpper(s: string): (r: string)
    ensures |r| == |s|
    ensures forall i :: 0 <= i < |s| ==> r[i] == UpperChar(s[i])
  {
    seq(|s|, i requires 0 <= i < |s| => UpperChar(s[i]))
  }

  /** Lower-casing twice is lower-casing once. */
  lemma ToLowerIdempotent(s: string)
    ensures ToLower(ToLower(s)) == ToLower(s)
  {
  }

  /** `s` has no ASCII capital letter. */
  predicate NoCapitals(s: string) {
    forall i :: 0 <= i < |s| ==> !('A' <= s[i] <= 'Z')
  }

  /** A string without upper-case letters is its own lower case. */
  lemma ToLowerUnchanged(s: string)
    requires NoCapitals(s)
    ensures ToLower(s) == s
  {
  }

  // ---------------------------------------------------------------- search

  /** `t` occurs in `s` starting at position `i`. */
  predicate OccursAt(s: string, t: string, i: nat) {
    i + |t| <= |s| && s[i..i + |t|] == t
  }

  /** `s.includes(t)`: `t` occurs in `s` at some position. */
  predicate Contains(s: string, t: string) {
    exists i: nat | i <= |s| :: OccursAt(s, t, i)
  }

  /** A concatenation starts with its first part and ends with its last. */
  lemma FramedBy(head: string, middle: string, tail: string)
    ensures OccursAt(head + middle + tail, head, 0)
    ensures OccursAt(head + middle + tail, tail, |head + middle + tail| - |tail|)
  {
    var p := head + middle + tail;
    assert p[..|head|] == head;
    assert p[|p| - |tail|..] == tail;
  }

  /** A needle whose first character never appears in `s` does not occur in `s`. */
  lemma {:induction false} NotContainedWhenHeadAbsent(s: string, t: string)
    requires t != [] && t[0] !in s
    ensures !Contains(s, t)
  {
    forall i: nat | i <= |s|
      ensures !OccursAt(s, t, i)
    {
      if i + |t| <= |s| {
        assert s[i..i + |t|][0] == s[i];
      }
    }
  }

  /**
   * A needle that starts with `c`, in a text where `c` appears once and is followed by
   * something other than the needle's second character, does not occur in the text.
   */
  lemma {:induction false} NotContainedAroundOnly(a: string, c: char, b: string, t: string)
    requires |t| >= 2 && t[0] == c && c !in a && c !in b
    requires b == [] || b[0] != t[1]
    ensures !Contains(a + [c] + b, t)
  {
    var s := a + [c] + b;
    forall i: nat | i <= |s|
      ensures !OccursAt(s, t, i)
    {
      if i + |t| <= |s| {
        assert s[i..i + |t|][0] == s[i] && s[i..i + |t|][1] == s[i + 1];
        if i < |a| {
          assert s[i] == a[i];
        } else if i > |a| {
          assert s[i] == b[i - |a| - 1];
        } else {
          assert s[i + 1] == b[0];
        }
      }
    }
  }

  // ---------------------------------------------------------------- slicing

  /**
   * `Array.prototype.slice(start)` (also `String.prototype.slice`): a negative start counts
   * from the end and is clamped at 0, a positive one is clamped at the length.
   */
  function SliceFrom<T>(s: seq<T>, start: int): (r: seq<T>)
    ensures start >= 0 ==> r == s[Min(start, |s|)..]
    ensures start < 0 ==> r == s[|s| - Min(-start, |s|)..]
  {
    var from := if start < 0 then Max(|s| + start, 0) else Min(start, |s|);
    s[from..]
  }

  // ---------------------------------------------------------------- UTF-16

  /** The UTF-16 code units of `c`: two (a surrogate pair) outside the Basic Multilingual Plane. */
  function Units(c: char): nat {
    if c as int >= 0x1_0000 then 2 else 1
  }

  /** `s.length`, which counts UTF-16 code units, not characters. */
  function Length(s: string): (n: nat)
    ensures |s| <= n <= 2 * |s|
    ensures n == |s| <==> forall i :: 0 <= i < |s| ==> Units(s[i]) == 1
  {
    if s == [] then 0
    else
      var n := Units(s[0]) + Length(s[1..]);
      assert forall i :: 1 <= i < |s| ==> s[i] == s[1..][i - 1];
      n
  }

  /**
   * `s.substring(0, n)`: the longest prefix of `s` that fits in `n` code units. A cut that
   * falls inside a surrogate pair stops before the pair.
   */
  function Prefix(s: string, n: nat): (r: string)
    ensures |r| <= |s| && r == s[..|r|] && Length(r) <= n
    ensures |r| < |s| ==> Length(r) + Units(s[|r|]) > n
  {
    if s == [] || Units(s[0]) > n then []
    else
      var rest := Prefix(s[1..], n - Units(s[0]));
      var r := [s[0]] + rest;
      assert r[0] == s[0] && r[1..] == rest;
      assert Length(r) == Units(s[0]) + Length(rest);
      assert s[..|r|] == [s[0]] + s[1..][..|rest|];
      r
  }

  /** On text without astral characters the cut is at `min(n, |s|)` characters. */
  lemma {:induction false} PrefixOfPlaneText(s: string, n: nat)
    requires forall i :: 0 <= i < |s| ==> Units(s[i]) == 1
    ensures Prefix(s, n) == s[..Min(n, |s|)]
  {
    if s != [] && n >= 1 {
      assert forall i :: 0 <= i < |s| - 1 ==> s[1..][i] == s[i + 1];
      PrefixOfPlaneText(s[1..], n - 1);
    }
  }

  // ---------------------------------------------------------------- text

  function DigitChar(d: nat): (c: char)
    requires d < 10
    ensures '0' <= c <= '9'
    ensures DigitValue(c) == d
  {
    ('0' as int + d) as char
  }

  function DigitValue(c: char): int {
    c as int - '0' as int
  }

  /** The number a string of decimal digits denotes, most significant digit first. */
  function DecimalValue(s: string): int {
    if s == [] then 0 else 10 * DecimalValue(s[..|s| - 1]) + DigitValue(s[|s| - 1])
  }

  /** The decimal numeral of `n`, as template literals and `String(n)` write it. */
  function NatToString(n: nat): (r: string)
    ensures |r| >= 1
    ensures forall i :: 0 <= i < |r| ==> '0' <= r[i] <= '9'
    ensures |r| > 1 ==> r[0] != '0'
    ensures DecimalValue(r) == n
  {
    if n < 10 then
      var r := [DigitChar(n)];
      assert r[..0] == [];
      r
    else
      var r := NatToString(n / 10) + [DigitChar(n % 10)];
      assert r[..|r| - 1] == NatToString(n / 10);
      r
  }

  function IntToString(n: int): string {
    if n < 0 then "-" + NatToString(-n) else NatToString(n)
  }

  /** `parts.join(sep)`. */
  function Join(parts: seq<string>, sep: string): string {
    if |parts| == 0 then ""
    else if |parts| == 1 then parts[0]
    else Join(parts[..|parts| - 1], sep) + sep + parts[|parts| - 1]
  }

  // ---------------------------------------------------------------- objects

  /**
   * `obj[key]` on a plain object whose own properties are `entries`, in insertion order;
   * `None` is `undefined`.
   */
  function Lookup<V>(entries: seq<(string, V)>, key: string): (r: Option<V>)
    ensures r.None? <==> forall i :: 0 <= i < |entries| ==> entries[i].0 != key
    ensures r.Some? ==> exists i :: 0 <= i < |entries| && entries[i] == (key, r.value)
  {
    if entries == [] then None
    else if entries[0].0 == key then Some(entries[0].1)
    else
      var r := Lookup(entries[1..], key);
      assert r.Some? ==> exists i :: 0 <= i < |entries| - 1 && entries[1..][i] == (key, r.value);
      r
  }
}

=== FILE: json.dfy ===
/**
 * JSON values as the backend adapter sees them after `response.json()`, with the
 * JavaScript operations the decoder applies to them: truthiness, property access,
 * `v[0]`, and `JSON.stringify`.
 */
module Json {
  import opened Wrappers
  import Js

  /**
   * A parsed JSON value. Numbers are integers here; an object keeps its properties in the
   * order the text lists them. `JSON.parse` keeps one property per key; a field list here
   * may repeat a key, and a read then finds the first.
   */
  datatype Json =
    | JNull
    | JBool(b: bool)
    | JNum(n: int)
    | JStr(s: string)
    | JArr(items: seq<Json>)
    | JObj(fields: seq<(string, Json)>)

  /** JavaScript truthiness: `null`, `false`, `0` and `""` are falsy. */
  predicate Truthy(v: Json) {
    match v
    case JNull => false
    case JBool(b) => b
    case JNum(n) => n != 0
    case JStr(s) => s != []
    case JArr(_) => true
    case JObj(_) => true
  }

  /** Truthiness of a property read; an absent property (`undefined`) is falsy. */
  predicate Present(v: Option<Json>) {
    v.Some? && Truthy(v.value)
  }

  /**
   * `v.key` (or `v?.key`) for the property names the decoder reads: only objects have
   * them as own properties; on any other value the read gives `undefined`.
   */
  function Member(v: Json, key: string): (r: Option<Json>)
    ensures r.Some? ==> v.JObj?
    ensures v.JObj? ==> r == Js.Lookup(v.fields, key)
  {
    if v.JObj? then Js.Lookup(v.fields, key) else None
  }

  /** `v[0]`: the first element of an array, the first character of a string, property "0". */
  function First(v: Json): Option<Json> {
    match v
    case JArr(items) => if items == [] then None else Some(items[0])
    case JStr(s) => if s == [] then None else Some(JStr([s[0]]))
    case JObj(fields) => Js.Lookup(fields, "0")
    case _ => None
  }

  // ---------------------------------------------------------------- JSON.stringify

  function HexDigit(d: nat): char
    requires d < 16
  {
    "0123456789abcdef"[d]
  }

  /** How `JSON.stringify` writes one character inside a string literal. */
  function EscapeChar(c: char): string {
    if c == '"' then "\\\""
    else if c == '\\' then "\\\\"
    else if c == '\U{0008}' then "\\b"
    else if c == '\t' then "\\t"
    else if c == '\n' then "\\n"
    else if c == '\U{000C}' then "\\f"
    else if c == '\r' then "\\r"
    else if c < ' ' then "\\u00" + [HexDigit(c as nat / 16), HexDigit(c as nat % 16)]
    else [c]
  }

  function Escape(s: string): string {
    if s == [] then "" else Escape(s[..|s| - 1]) + EscapeChar(s[|s| - 1])
  }

  function Quote(s: string): string {
    "\"" + Escape(s) + "\""
  }

  /**
   * `JSON.stringify(v)`: compact, properties in the order the object lists them (JavaScript
   * would put integer-like keys first).
   */
  function Serialize(v: Json): string
    decreases v
  {
    match v
    case JNull => "null"
    case JBool(b) => if b then "true" else "false"
    case JNum(n) => Js.IntToString(n)
    case JStr(s) => Quote(s)
    case JArr(items) =>
      "[" + Js.Join(seq(|items|, i requires 0 <= i < |items| => Serialize(items[i])), ",") + "]"
    case JObj(fields) =>
      "{" + Js.Join(seq(|fields|, i requires 0 <= i < |fields| => Quote(fields[i].0) + ":" + Serialize(fields[i].1)), ",") + "}"
  }
}

=== FILE: llama_adapter.dfy ===
/**
 * The HTTP generation adapter (`LlamaAdapter`): its configuration defaults, the request
 * payload it builds, how a failed exchange becomes an error message, and the decoder
 * that normalises the reply shapes of Ollama, llama.cpp and OpenAI-compatible servers.
 *
 * The HTTP exchange itself is a parameter `send`: it maps a request (endpoint, timeout,
 * payload) to what `fetch` produced.
 */
module Llama {
  import opened Wrappers
  import opened Json
  import Js

  /** One entry of `config.backends`; absent properties are `None`. */
  datatype BackendConfig = BackendConfig(kind: Option<string>, endpoint: string, timeout: Option<int>)

  /** A constructed adapter: its configuration, endpoint, timeout in ms and type. */
  datatype Adapter = Adapter(config: BackendConfig, endpoint: string, timeout: int, kind: string)

  const DefaultTimeout: int := 30000
  const DefaultMaxTokens: int := 500

  /** `new LlamaAdapter(config)`: `timeout || 30000`, `type || 'http'`. */
  function NewAdapter(config: BackendConfig): (a: Adapter)
    ensures a.config == config && a.endpoint == config.endpoint
    ensures a.timeout != 0 && a.kind != ""
    ensures config.timeout.None? ==> a.timeout == DefaultTimeout
    ensures config.timeout.Some? && config.timeout.value != 0 ==> a.timeout == config.timeout.value
    ensures config.kind.None? ==> a.kind == "http"
    ensures config.kind.Some? && config.kind.value != "" ==> a.kind == config.kind.value
  {
    var timeout := if config.timeout.Some? && config.timeout.value != 0 then config.timeout.value else DefaultTimeout;
    var kind := if config.kind.Some? && config.kind.value != "" then config.kind.value else "http";
    Adapter(config, config.endpoint, timeout, kind)
  }

  /** The options `generate` receives; `None` is an omitted option. */
  datatype Options = Options(modelName: string, prompt: string, maxTokens: Option<int>, stopSequences: Option<seq<string>>)

  /** The JSON body posted to the backend (the temperature is not modelled). */
  datatype Payload = Payload(model: string, prompt: string, max_tokens: int, stop: seq<string>, stream: bool)

  /** The request body built by `generate`, with the defaults of its destructuring. */
  function BuildPayload(o: Options): (p: Payload)
    ensures p.model == o.modelName && p.prompt == o.prompt
    ensures p.max_tokens == (if o.maxTokens.Some? then o.maxTokens.value else DefaultMaxTokens)
    ensures p.stop == (if o.stopSequences.Some? then o.stopSequences.value else [])
    ensures !p.stream
  {
    Payload(o.modelName, o.prompt, o.maxTokens.GetOr(DefaultMaxTokens), o.stopSequences.GetOr([]), false)
  }

  /** What one POST to the backend came to. */
  datatype Exchange =
    | Responded(status: int, statusText: string, body: Result<Json, string>)  // body: `response.json()`
    | Aborted                                                                 // the timeout fired
    | Failed(message: string)                                                 // `fetch` threw

  datatype Request = Request(endpoint: string, timeout: int, payload: Payload)

  /** `sendRequest`: the parsed body of a 2xx answer, or the message of the error it throws. */
  function SendRequest(a: Adapter, p: Payload, send: Request -> Exchange): (r: Result<Json, string>)
    ensures var x := send(Request(a.endpoint, a.timeout, p));
      x.Responded? && 200 <= x.status <= 299 ==> r == x.body
    ensures var x := send(Request(a.endpoint, a.timeout, p));
      x.Responded? && !(200 <= x.status <= 299) ==>
        r == Err("HTTP " + Js.IntToString(x.status) + ": " + x.statusText)
    ensures send(Request(a.endpoint, a.timeout, p)).Aborted? ==> r == Err("Request timeout")
    ensures send(Request(a.endpoint, a.timeout, p)).Failed? ==> r == Err(send(Request(a.endpoint, a.timeout, p)).message)
  {
    match send(Request(a.endpoint, a.timeout, p))
    case Responded(status, statusText, body) =>
      if 200 <= status <= 299 then body
      else Err("HTTP " + Js.IntToString(status) + ": " + statusText)
    case Aborted => Err("Request timeout")
    case Failed(message) => Err(message)
  }

  // ---------------------------------------------------------------- decoding

  /** The message of the TypeError thrown when a property of `null` is read. */
  function NullRead(key: string): string {
    "Cannot read properties of null (reading '" + key + "')"
  }

  /**
   * `parseResponse`, as the source writes it: a chain of guarded returns, the first truthy
   * field wins, and an unknown shape is returned as its serialisation. Reading a property
   * of `null` throws.
   */
  function ParseResponse(r: Json): (out: Result<Json, string>)
    ensures out.Err? <==> r.JNull?
  {
    if r.JNull? then Err(NullRead("response"))
    else if Present(Member(r, "response")) then Ok(Member(r, "response").value)
    else if Present(Member(r, "content")) then Ok(Member(r, "content").value)
    else if Present(Member(r, "choices")) && Present(First(Member(r, "choices").value)) then
      var choice := First(Member(r, "choices").value).value;
      if Present(Member(choice, "text")) then Ok(Member(choice, "text").value)
      else
        var message := Member(choice, "message");
        if message.Some? && Present(Member(message.value, "content")) then Ok(Member(message.value, "content").value)
        else Ok(JStr(""))
    else if Present(Member(r, "text")) then Ok(Member(r, "text").value)
    else Ok(JStr(Serialize(r)))
  }

  // The same decoder stated as a priority-ordered list of shape matchers.

  /** A reply shape: the decoded value when `r` has that shape. */
  type Shape = Json -> Option<Json>

  function Field(key: string): Shape {
    (r: Json) => if Present(Member(r, key)) then Member(r, key) else None
  }

  /** `{choices: [c, ...]}`: `c.text || c.message?.content || ''`. */
  function ChoicesShape(r: Json): Option<Json> {
    var choices := Member(r, "choices");
    if !(Present(choices) && Present(First(choices.value))) then None
    else
      var c := First(choices.value).value;
      var message := Member(c, "message");
      if Present(Member(c, "text")) then Member(c, "text")
      else if message.Some? && Present(Member(message.value, "content")) then Member(message.value, "content")
      else Some(JStr(""))
  }

  /** The shapes in the order they are tried. */
  function Shapes(): seq<Shape> {
    [Field("response"), Field("content"), ChoicesShape, Field("text")]
  }

  function FirstMatch(shapes: seq<Shape>, r: Json): Option<Json> {
    if shapes == [] then None
    else if shapes[0](r).Some? then shapes[0](r)
    else FirstMatch(shapes[1..], r)
  }

  /** The decoder as a priority-ordered list of shape matchers: the first that matches, else the raw serialisation. */
  function Decode(r: Json): Json {
    match FirstMatch(Shapes(), r)
    case Some(v) => v
    case None => JStr(Serialize(r))
  }

  /** The shape list tried in order, written out. */
  lemma ShapesInOrder(r: Json)
    ensures FirstMatch(Shapes(), r) ==
      if Field("response")(r).Some? then Field("response")(r)
      else if Field("content")(r).Some? then Field("content")(r)
      else if ChoicesShape(r).Some? then ChoicesShape(r)
      else Field("text")(r)
  {
    var s := Shapes();
    assert s[1..] == [Field("content"), ChoicesShape, Field("text")];
    assert s[2..] == [ChoicesShape, Field("text")];
    assert s[3..] == [Field("text")];
    assert s[4..] == [];
    assert FirstMatch(s, r) == (if s[0](r).Some? then s[0](r) else FirstMatch(s[1..], r));
    assert FirstMatch(s[1..], r) == (if s[1](r).Some? then s[1](r) else FirstMatch(s[2..], r));
    assert FirstMatch(s[2..], r) == (if s[2](r).Some? then s[2](r) else FirstMatch(s[3..], r));
    assert FirstMatch(s[3..], r) == (if s[3](r).Some? then s[3](r) else FirstMatch(s[4..], r));
  }

  /** The chain of guarded returns is exactly the priority-ordered shape decoder. */
  lemma ParseResponseIsDecode(r: Json)
    requires !r.JNull?
    ensures ParseResponse(r) == Ok(Decode(r))
  {
    ShapesInOrder(r);
    if Present(Member(r, "response")) {
      assert Field("response")(r) == Member(r, "response");
    } else if Present(Member(r, "content")) {
      assert Field("response")(r).None?;
      assert Field("content")(r) == Member(r, "content");
    } else if ChoicesShape(r).Some? {
      assert Field("response")(r).None? && Field("content")(r).None?;
    } else {
      assert Field("response")(r).None? && Field("content")(r).None?;
      assert Field("text")(r) == (if Present(Member(r, "text")) then Member(r, "text") else None);
    }
  }

  /** A truthy `response` wins over every other field. */
  lemma ResponseFieldWins(r: Json)
    requires Present(Member(r, "response"))
    ensures ParseResponse(r) == Ok(Member(r, "response").value)
  {
  }

  /** With `choices[0]` present, its text is used even when a top-level `text` exists. */
  lemma ChoicesBeforeText(r: Json)
    requires !Present(Member(r, "response")) && !Present(Member(r, "content"))
    requires ChoicesShape(r).Some?
    ensures ParseResponse(r) == Ok(ChoicesShape(r).value)
  {
  }

  /** Falsy fields are skipped: `{response: "", content: "x"}` decodes to `"x"`. */
  lemma EmptyResponseSkipped()
    ensures ParseResponse(JObj([("response", JStr("")), ("content", JStr("x"))])) == Ok(JStr("x"))
  {
    var r := JObj([("response", JStr("")), ("content", JStr("x"))]);
    assert Member(r, "response") == Some(JStr(""));
    assert Member(r, "content") == Some(JStr("x"));
  }

  /** `generate`: build the payload, send it, decode the answer; errors pass through. */
  function Generate(a: Adapter, o: Options, send: Request -> Exchange): (r: Result<Json, string>)
    ensures SendRequest(a, BuildPayload(o), send).Err? ==> r == SendRequest(a, BuildPayload(o), send)
    ensures SendRequest(a, BuildPayload(o), send).Ok? && !SendRequest(a, BuildPayload(o), send).value.JNull?
      ==> r == Ok(Decode(SendRequest(a, BuildPayload(o), send).value))
    ensures SendRequest(a, BuildPayload(o), send) == Ok(JNull) ==> r == Err(NullRead("response"))
  {
    match SendRequest(a, BuildPayload(o), send)
    case Ok(body) =>
      if body.JNull? then ParseResponse(body)
      else ParseResponseIsDecode(body); ParseResponse(body)
    case Err(e) => Err(e)
  }
}

=== FILE: memory_store.dfy ===
/**
 * The bounded conversation memory (`MemoryStore`): an append-only list of messages that
 * keeps its 100 most recent entries, and the read-only views the turn pipeline uses.
 */
module Memory {
  import opened Wrappers
  import Js

  /** A stored message; its timestamp and random id are not modelled. */
  datatype Message = Message(role: string, content: string)

  /** `maxMessages`. */
  const MaxMessages: int := 100

  /** The eviction step of `addMessage`: only the last `MaxMessages` entries survive. */
  function Retained(s: seq<Message>): (r: seq<Message>)
    ensures |r| == Js.Min(|s|, MaxMessages)
    ensures r == s[|s| - |r|..]
  {
    if |s| > MaxMessages then Js.SliceFrom(s, -MaxMessages) else s
  }

  /** What `getContext` returns, without the `conversationStart` timestamp. */
  datatype Context = Context(recentMessages: seq<Message>, totalMessages: nat)

  /**
   * The context `getContext(recentCount)` builds from `messages`: the last `recentCount`
   * messages (all of them for 0, since `slice(-0)` is `slice(0)`) and the total count.
   */
  function ContextOf(messages: seq<Message>, recentCount: int): (c: Context)
    ensures c.totalMessages == |messages|
    ensures recentCount >= 1 ==>
      c.recentMessages == messages[|messages| - Js.Min(recentCount, |messages|)..]
    ensures recentCount == 0 ==> c.recentMessages == messages
    ensures recentCount < 0 ==> c.recentMessages == messages[Js.Min(-recentCount, |messages|)..]
  {
    Context(Js.SliceFrom(messages, -recentCount), |messages|)
  }

  /** The context taken right after a message is stored ends with that message. */
  lemma ContextEndsWithLatest(messages: seq<Message>, m: Message, recentCount: int)
    requires recentCount >= 1
    ensures var c := ContextOf(Retained(messages + [m]), recentCount);
      c.recentMessages != [] && c.recentMessages[|c.recentMessages| - 1] == m
  {
    var kept := Retained(messages + [m]);
    assert kept[|kept| - 1] == m;
  }

  /** What `getStats` returns, without the oldest and newest timestamps. */
  datatype Stats = Stats(totalMessages: nat, userMessages: nat, assistantMessages: nat)

  /** How many of `s` have the given role. */
  function CountRole(s: seq<Message>, role: string): (n: nat)
    ensures n <= |s|
    ensures n == 0 <==> forall i :: 0 <= i < |s| ==> s[i].role != role
  {
    if s == [] then 0
    else CountRole(s[..|s| - 1], role) + (if s[|s| - 1].role == role then 1 else 0)
  }

  /** Counting is additive over consecutive runs, and one message counts once under its own role. */
  lemma {:induction false} CountRoleAppend(a: seq<Message>, b: seq<Message>, role: string)
    ensures CountRole(a + b, role) == CountRole(a, role) + CountRole(b, role)
    ensures |b| == 1 ==> CountRole(b, role) == (if b[0].role == role then 1 else 0)
  {
    if b == [] {
      assert a + b == a;
    } else {
      var c := b[..|b| - 1];
      assert (a + b)[..|a + b| - 1] == a + c && (a + b)[|a + b| - 1] == b[|b| - 1];
      CountRoleAppend(a, c, role);
    }
  }

  /** A message is counted under at most one role. */
  lemma {:induction false} DistinctRolesBounded(s: seq<Message>, a: string, b: string)
    requires a != b
    ensures CountRole(s, a) + CountRole(s, b) <= |s|
  {
    if s != [] {
      DistinctRolesBounded(s[..|s| - 1], a, b);
    }
  }

  /** The search test: lower-cased content contains the lower-cased query. */
  predicate Matches(m: Message, query: string) {
    Js.Contains(Js.ToLower(m.content), Js.ToLower(query))
  }

  /** `messages.filter(msg => ...)` with the search test, in stored order. */
  function Filter(s: seq<Message>, query: string): (r: seq<Message>)
    ensures |r| <= |s|
    ensures forall m :: m in r <==> m in s && Matches(m, query)
  {
    if s == [] then []
    else
      var init := Filter(s[..|s| - 1], query);
      var last := s[|s| - 1];
      assert s == s[..|s| - 1] + [last];
      init + (if Matches(last, query) then [last] else [])
  }

  /** The filter keeps stored order: filtering a concatenation concatenates the results. */
  lemma {:induction false} FilterAppend(s: seq<Message>, t: seq<Message>, query: string)
    ensures Filter(s + t, query) == Filter(s, query) + Filter(t, query)
  {
    if t == [] {
      assert s + t == s;
    } else {
      var u := t[..|t| - 1];
      assert (s + t)[..|s + t| - 1] == s + u;
      FilterAppend(s, u, query);
    }
  }

  class MemoryStore {
    var messages: seq<Message>

    /** A new store; its messages arrive through `LoadMemory`. */
    constructor ()
      ensures messages == []
    {
      messages := [];
    }

    /**
     * `loadMemory()` once the file has been read: the stored messages (or `[]` when the
     * file holds none) replace the list; `None` is a missing or unreadable file.
     */
    method LoadMemory(stored: Option<seq<Message>>)
      modifies this
      ensures messages == (if stored.Some? then stored.value else [])
    {
      messages := if stored.Some? then stored.value else [];
    }

    /** `addMessage(role, content)`: append, then evict down to the newest 100. */
    method AddMessage(role: string, content: string) returns (m: Message)
      modifies this
      ensures m == Message(role, content)
      ensures messages == Retained(old(messages) + [m])
      ensures |messages| <= MaxMessages
      ensures messages != [] && messages[|messages| - 1] == m
    {
      m := Message(role, content);
      messages := messages + [m];
      if |messages| > MaxMessages {
        messages := Js.SliceFrom(messages, -MaxMessages);
      }
    }

    /** `getContext(recentCount)`. */
    function GetContext(recentCount: int): (c: Context)
      reads this
      ensures c == ContextOf(messages, recentCount)
    {
      ContextOf(messages, recentCount)
    }

    /** `getHistory()`: a copy of the whole list. */
    function GetHistory(): (h: seq<Message>)
      reads this
      ensures h == messages
    {
      messages[..]
    }

    /** `clearMemory()`. */
    method ClearMemory()
      modifies this
      ensures messages == []
    {
      messages := [];
    }

    /** `search(query)`: the messages whose content matches, in stored order. */
    function Search(query: string): (r: seq<Message>)
      reads this
      ensures forall m :: m in r <==> m in messages && Matches(m, query)
      ensures r == Filter(messages, query)
    {
      Filter(messages, query)
    }

    /** `getStats()`. */
    function GetStats(): (st: Stats)
      reads this
      ensures st.totalMessages == |messages|
      ensures st.userMessages == CountRole(messages, "user")
      ensures st.assistantMessages == CountRole(messages, "assistant")
      ensures st.userMessages + st.assistantMessages <= st.totalMessages
    {
      DistinctRolesBounded(messages, "user", "assistant");
      Stats(|messages|, CountRole(messages, "user"), CountRole(messages, "assistant"))
    }
  }
}

=== FILE: model_manager.dfy ===
/**
 * The generation manager (`ModelManager`): which model configuration a request uses,
 * which adapter serves it, when an adapter error is turned into the offline fallback
 * text, and how adapters are registered when the active backend changes.
 */
module Models {
  import opened Wrappers
  import opened Json
  import Js
  import Llama

  /** One entry of `config.models`. */
  datatype ModelConfig = ModelConfig(name: string, description: string)

  /** The loaded configuration; both tables keep their keys in insertion order. */
  datatype Config = Config(
    activeBackend: string,
    backends: seq<(string, Llama.BackendConfig)>,
    models: seq<(string, ModelConfig)>)

  /** `getDefaultConfig()`: the configuration used when the configuration file cannot be read. */
  function DefaultConfig(): Config {
    Config(
      "generic",
      [("generic", Llama.BackendConfig(Some("http"), "http://localhost:11434/api/generate", Some(30000)))],
      [("default", ModelConfig("phi3:mini", "Default chat model")),
       ("code", ModelConfig("codellama:7b", "Code generation model"))])
  }

  /** The backend names `initializeAdapters` knows how to serve. */
  predicate IsKnownBackend(name: string) {
    name == "ollama" || name == "llamacpp" || name == "generic"
  }

  /**
   * `initializeAdapters()`: a new adapter for the active backend when it is a known kind
   * with a configuration entry; otherwise the registered adapters stay as they are.
   */
  function RegisterActive(adapters: map<string, Llama.Adapter>, config: Config): (r: map<string, Llama.Adapter>)
    ensures forall name :: name in adapters ==> name in r
    ensures forall name :: name in r && name != config.activeBackend ==> name in adapters && r[name] == adapters[name]
    ensures config.activeBackend in r && config.activeBackend !in adapters
      ==> IsKnownBackend(config.activeBackend) && Js.Lookup(config.backends, config.activeBackend).Some?
    ensures IsKnownBackend(config.activeBackend) && Js.Lookup(config.backends, config.activeBackend).Some?
      ==> config.activeBackend in r
          && r[config.activeBackend] == Llama.NewAdapter(Js.Lookup(config.backends, config.activeBackend).value)
  {
    match Js.Lookup(config.backends, config.activeBackend)
    case None => adapters
    case Some(backend) =>
      if IsKnownBackend(config.activeBackend) then adapters[config.activeBackend := Llama.NewAdapter(backend)]
      else adapters
  }

  /** The options `generate` receives from the router; `None` is an omitted option. */
  datatype Request = Request(model: Option<string>, prompt: string, maxTokens: Option<int>, stopSequences: Option<seq<string>>)

  /** `model = 'default'` in the destructuring of `generate`'s options. */
  function ModelKey(req: Request): string {
    req.model.GetOr("default")
  }

  /** `models[model] || models['default']`. */
  function SelectModel(config: Config, key: string): (r: Option<ModelConfig>)
    ensures Js.Lookup(config.models, key).Some? ==> r == Js.Lookup(config.models, key)
    ensures Js.Lookup(config.models, key).None? ==> r == Js.Lookup(config.models, "default")
    ensures r.None? <==> Js.Lookup(config.models, key).None? && Js.Lookup(config.models, "default").None?
  {
    match Js.Lookup(config.models, key)
    case Some(m) => Some(m)
    case None => Js.Lookup(config.models, "default")
  }

  const OfflinePrefix: string :=
    "I'm currently running in offline mode. The LLM backend is not available. Please check that your local LLM server is running at the configured endpoint.\n\nYou asked: \""

  /**
   * `getFallbackResponse(prompt)`: the offline text echoing the start of the prompt, as many
   * whole characters as fit in 100 UTF-16 code units.
   */
  function FallbackResponse(prompt: string): (r: string)
    ensures |OfflinePrefix| + 4 <= |r|
    ensures r[..|OfflinePrefix|] == OfflinePrefix && r[|r| - 4..] == "...\""
    ensures var echoed := r[|OfflinePrefix|..|r| - 4];
      && |echoed| <= |prompt| && echoed == prompt[..|echoed|] && Js.Length(echoed) <= 100
      && (|echoed| < |prompt| ==> Js.Length(echoed) + Js.Units(prompt[|echoed|]) > 100)
  {
    OfflinePrefix + Js.Prefix(prompt, 100) + "...\""
  }

  /** The error split of `generate`: a message naming a refused connection or a failed fetch. */
  predicate IsBackendUnreachable(message: string) {
    Js.Contains(message, "ECONNREFUSED") || Js.Contains(message, "fetch")
  }

  /**
   * The reply text the pipeline carries. A decoded string is the text itself; any other
   * truthy value is carried as its JSON serialisation.
   */
  function ReplyText(v: Json): string {
    if v.JStr? then v.s else Serialize(v)
  }

  class ModelManager {
    var config: Config
    var adapters: map<string, Llama.Adapter>

    /**
     * The manager once `loadConfig` has finished: `config` is the loaded configuration, or
     * `DefaultConfig()` when the file could not be read; adapters are then initialised.
     */
    constructor (loaded: Config)
      ensures config == loaded
      ensures adapters == RegisterActive(map[], loaded)
    {
      config := loaded;
      adapters := map[];
      new;
      InitializeAdapters();
    }

    /** `initializeAdapters()`. */
    method InitializeAdapters()
      modifies this
      ensures config == old(config)
      ensures adapters == RegisterActive(old(adapters), config)
    {
      var backend := Js.Lookup(config.backends, config.activeBackend);
      if backend.None? {
        return;
      }
      if IsKnownBackend(config.activeBackend) {
        adapters := adapters[config.activeBackend := Llama.NewAdapter(backend.value)];
      }
    }

    /** `switchBackend(name)`: fails for an unconfigured name and changes nothing then. */
    method SwitchBackend(name: string) returns (r: Result<(), string>)
      modifies this
      ensures Js.Lookup(old(config).backends, name).None? ==>
        r == Err("Backend '" + name + "' not found") && config == old(config) && adapters == old(adapters)
      ensures Js.Lookup(old(config).backends, name).Some? ==>
        r == Ok(()) && config == old(config).(activeBackend := name)
        && adapters == RegisterActive(old(adapters), config)
    {
      if Js.Lookup(config.backends, name).None? {
        return Err("Backend '" + name + "' not found");
      }
      config := config.(activeBackend := name);
      InitializeAdapters();
      r := Ok(());
    }

    /** One entry of `getAvailableModels()`: the key as `id`, spread with the model's fields. */
    function AvailableModels(): (r: seq<(string, ModelConfig)>)
      reads this
      ensures |r| == |config.models|
      ensures forall i :: 0 <= i < |r| ==> r[i].0 == config.models[i].0 && r[i].1 == config.models[i].1
    {
      var models := config.models;
      seq(|models|, i requires 0 <= i < |models| => (models[i].0, models[i].1))
    }
  }

  /**
   * `generate(options)` on a manager with configuration `config` and registered `adapters`:
   * select the model configuration, find the active backend's adapter, run it; a
   * connection failure becomes the offline fallback text and any other adapter error is
   * rethrown unchanged.
   */
  function Generate(config: Config, adapters: map<string, Llama.Adapter>, req: Request, send: Llama.Request -> Llama.Exchange)
    : (r: Result<string, string>)
    ensures SelectModel(config, ModelKey(req)).None? ==>
      r == Err("Model '" + ModelKey(req) + "' not found in configuration")
    ensures SelectModel(config, ModelKey(req)).Some? && config.activeBackend !in adapters ==>
      r == Err("No adapter initialized for backend: " + config.activeBackend)
    ensures r.Err? && SelectModel(config, ModelKey(req)).Some? && config.activeBackend in adapters ==>
      !IsBackendUnreachable(r.error)
    ensures SelectModel(config, ModelKey(req)).Some? && config.activeBackend in adapters ==>
      var sent := Llama.SendRequest(adapters[config.activeBackend], PayloadFor(config, req), send);
      && (sent.Ok? && !sent.value.JNull? ==> r == Ok(ReplyText(Llama.Decode(sent.value))))
      && (sent.Err? && IsBackendUnreachable(sent.error) ==> r == Ok(FallbackResponse(req.prompt)))
      && (sent.Err? && !IsBackendUnreachable(sent.error) ==> r == Err(sent.error))
      && (sent == Ok(JNull) ==> r == Err(Llama.NullRead("response")))
  {
    match SelectModel(config, ModelKey(req))
    case None => Err("Model '" + ModelKey(req) + "' not found in configuration")
    case Some(model) =>
      if config.activeBackend !in adapters then
        Err("No adapter initialized for backend: " + config.activeBackend)
      else
        var options := Llama.Options(model.name, req.prompt, Some(req.maxTokens.GetOr(500)), Some(req.stopSequences.GetOr([])));
        match Llama.Generate(adapters[config.activeBackend], options, send)
        case Ok(v) => Ok(ReplyText(v))
        case Err(message) =>
          NullReadIsNotUnreachable();
          if IsBackendUnreachable(message) then Ok(FallbackResponse(req.prompt)) else Err(message)
  }

  /** The payload actually posted for a request, once a model is found. */
  function PayloadFor(config: Config, req: Request): Llama.Payload
    requires SelectModel(config, ModelKey(req)).Some?
  {
    Llama.BuildPayload(Llama.Options(SelectModel(config, ModelKey(req)).value.name, req.prompt,
      Some(req.maxTokens.GetOr(500)), Some(req.stopSequences.GetOr([]))))
  }

  /** The TypeError of a `null` reply body is rethrown, not mistaken for an unreachable backend. */
  lemma NullReadIsNotUnreachable()
    ensures !IsBackendUnreachable(Llama.NullRead("response"))
  {
    NullReadNotRefused();
    NullReadNotFetch();
  }

  /** The null-read message around its only `f`. */
  lemma NullReadText()
    ensures Llama.NullRead("response") == "Cannot read properties o" + ['f'] + " null (reading 'response')"
  {
  }

  lemma NullReadNotRefused()
    ensures !Js.Contains(Llama.NullRead("response"), "ECONNREFUSED")
  {
    NullReadText();
    Js.NotContainedWhenHeadAbsent(Llama.NullRead("response"), "ECONNREFUSED");
  }

  lemma NullReadNotFetch()
    ensures !Js.Contains(Llama.NullRead("response"), "fetch")
  {
    NullReadText();
    Js.NotContainedAroundOnly("Cannot read properties o", 'f', " null (reading 'response')", "fetch");
  }

  /** A model name missing from the configuration is served by the `default` model. */
  lemma UnknownModelUsesDefault(config: Config, adapters: map<string, Llama.Adapter>, req: Request, send: Llama.Request -> Llama.Exchange)
    requires Js.Lookup(config.models, ModelKey(req)).None?
    requires Js.Lookup(config.models, "default").Some?
    ensures Generate(config, adapters, req, send) == Generate(config, adapters, req.(model := Some("default")), send)
  {
  }

  /** A timed-out request is not mistaken for an unreachable backend: it is rethrown. */
  lemma TimeoutIsRethrown(config: Config, adapters: map<string, Llama.Adapter>, req: Request, send: Llama.Request -> Llama.Exchange)
    requires SelectModel(config, ModelKey(req)).Some? && config.activeBackend in adapters
    requires send(Llama.Request(adapters[config.activeBackend].endpoint,
                                adapters[config.activeBackend].timeout, PayloadFor(config, req))).Aborted?
    ensures Generate(config, adapters, req, send) == Err("Request timeout")
  {
    Js.NotContainedWhenHeadAbsent("Request timeout", "ECONNREFUSED");
    Js.NotContainedWhenHeadAbsent("Request timeout", "fetch");
  }

  /** A refused connection yields the offline text instead of an error. */
  lemma RefusedConnectionFallsBack(config: Config, adapters: map<string, Llama.Adapter>, req: Request, send: Llama.Request -> Llama.Exchange)
    requires SelectModel(config, ModelKey(req)).Some? && config.activeBackend in adapters
    requires var x := send(Llama.Request(adapters[config.activeBackend].endpoint,
                                         adapters[config.activeBackend].timeout, PayloadFor(config, req)));
      x.Failed? && Js.Contains(x.message, "ECONNREFUSED")
    ensures Generate(config, adapters, req, send) == Ok(FallbackResponse(req.prompt))
  {
  }

  /** With the default configuration, the `generic` backend gets an HTTP adapter with a 30 s timeout. */
  lemma DefaultConfigRegistersGeneric()
    ensures RegisterActive(map[], DefaultConfig()).Keys == {"generic"}
    ensures RegisterActive(map[], DefaultConfig())["generic"]
      == Llama.Adapter(DefaultConfig().backends[0].1, "http://localhost:11434/api/generate", 30000, "http")
  {
  }
}

=== FILE: server.dfy ===
/**
 * The WebSocket turn pipeline of the backend server: the inbound message dispatcher, the
 * text-input turn (state changes, memory writes, routing, the reply, the ordered audio
 * chunks) and its error path. What is sent on one connection is the `outbox` log.
 */
module Server {
  import opened Wrappers
  import Js
  import StateMachine
  import Memory
  import Router
  import Llama
  import Speech

  /** A message sent to the client (timestamps are not modelled). */
  datatype Event =
    | StateEvent(state: StateMachine.Activity)              // `state`
    | AiResponse(content: string, metadata: Router.Metadata)  // `ai_response`
    | AudioChunk(chunk: Speech.Chunk)                       // `ai_audio_chunk`
    | ErrorEvent(message: string)                           // `error`

  /**
   * An inbound frame. `Unparsable` is a frame whose handling throws before the `type`
   * switch: text that `JSON.parse` rejects, or text that parses to `null`, where reading
   * `data.type` throws "Cannot read properties of null (reading 'type')"; it carries the
   * thrown message. `Parsed` is any other value, with its `type` (absent: `None`) and
   * `content`.
   */
  datatype Inbound = Unparsable(parseError: string) | Parsed(kind: Option<string>, content: string)

  /** How many recent messages the turn hands to the router (`getContext()`'s default). */
  const ContextSize: int := 10

  /** The `ai_audio_chunk` events for the per-piece outcomes: the successful ones, in order. */
  function AudioEvents(rs: seq<Option<Speech.Chunk>>): seq<Event> {
    if rs == [] then []
    else AudioEvents(rs[..|rs| - 1]) + (if rs[|rs| - 1].Some? then [AudioChunk(rs[|rs| - 1].value)] else [])
  }

  /** The audio events carry exactly the delivered chunks, in order. */
  lemma {:induction false} AudioEventsDelivered(rs: seq<Option<Speech.Chunk>>)
    ensures |AudioEvents(rs)| == |Speech.Delivered(rs)|
    ensures forall k :: 0 <= k < |AudioEvents(rs)| ==> AudioEvents(rs)[k] == AudioChunk(Speech.Delivered(rs)[k])
  {
    if rs != [] {
      AudioEventsDelivered(rs[..|rs| - 1]);
    }
  }

  /** The audio events of a reply: its sentence pieces, synthesised and delivered in order. */
  function TurnAudio(text: string, synth: Speech.Synth): seq<Event> {
    AudioEvents(Speech.ChunkResults(Speech.Sentences(text), synth))
  }

  /** The context the router receives: taken after the user message is stored. */
  function TurnContext(messages: seq<Memory.Message>, input: string): Memory.Context {
    Memory.ContextOf(Memory.Retained(messages + [Memory.Message("user", input)]), ContextSize)
  }

  /** The error event of a failed turn. */
  function TurnError(message: string): Event {
    ErrorEvent("AI processing error: " + message)
  }

  /** What a turn sends once routing has produced its outcome (the reply or the error path). */
  function AfterRouting(outcome: Result<Router.Routed, string>, synth: Speech.Synth): seq<Event> {
    match outcome
    case Err(e) => [StateEvent(StateMachine.Idle), TurnError(e)]
    case Ok(r) => Announce(r) + TurnAudio(r.text, synth) + [StateEvent(StateMachine.Idle)]
  }

  /** Everything a text-input turn sends: thinking, then what follows routing. */
  function TurnEvents(outcome: Result<Router.Routed, string>, synth: Speech.Synth): seq<Event> {
    [StateEvent(StateMachine.Thinking)] + AfterRouting(outcome, synth)
  }

  /** The memory after a turn: the user message, then the reply when routing succeeded. */
  function TurnMemory(messages: seq<Memory.Message>, input: string, outcome: Result<Router.Routed, string>): seq<Memory.Message> {
    var withUser := Memory.Retained(messages + [Memory.Message("user", input)]);
    if outcome.Ok? then Memory.Retained(withUser + [Memory.Message("assistant", outcome.value.text)]) else withUser
  }

  /** The state transitions recorded once routing has produced its outcome. */
  function TransitionsAfterRouting(outcome: Result<Router.Routed, string>): seq<StateMachine.Transition> {
    if outcome.Ok? then
      [StateMachine.Transition(StateMachine.Thinking, StateMachine.Speaking),
       StateMachine.Transition(StateMachine.Speaking, StateMachine.Idle)]
    else
      [StateMachine.Transition(StateMachine.Thinking, StateMachine.Idle)]
  }

  /** The states broadcast in a list of events, in order. */
  function StatesOf(es: seq<Event>): seq<StateMachine.Activity> {
    if es == [] then []
    else StatesOf(es[..|es| - 1]) + (if es[|es| - 1].StateEvent? then [es[|es| - 1].state] else [])
  }

  lemma {:induction false} StatesOfAppend(a: seq<Event>, b: seq<Event>)
    ensures StatesOf(a + b) == StatesOf(a) + StatesOf(b)
  {
    if b == [] {
      assert a + b == a;
    } else {
      var c := b[..|b| - 1];
      assert (a + b)[..|a + b| - 1] == a + c;
      StatesOfAppend(a, c);
    }
  }

  /** Events without state changes broadcast no state. */
  lemma {:induction false} NoStatesIn(es: seq<Event>)
    requires forall k :: 0 <= k < |es| ==> !es[k].StateEvent?
    ensures StatesOf(es) == []
  {
    if es != [] {
      NoStatesIn(es[..|es| - 1]);
    }
  }

  /** Events that change no state can be left out of the state sequence. */
  lemma StatesAround(head: seq<Event>, quiet: seq<Event>, tail: seq<Event>)
    requires forall k :: 0 <= k < |quiet| ==> !quiet[k].StateEvent?
    ensures StatesOf(head + quiet + tail) == StatesOf(head) + StatesOf(tail)
  {
    StatesOfAppend(head + quiet, tail);
    StatesOfAppend(head, quiet);
    NoStatesIn(quiet);
  }

  lemma AppendAssociative(a: seq<Event>, b: seq<Event>, c: seq<Event>, d: seq<Event>)
    ensures a + b + c + d == a + (b + c + d)
  {
  }

  /** The events a successful turn sends between routing and its audio. */
  function Announce(r: Router.Routed): seq<Event> {
    [StateEvent(StateMachine.Speaking), AiResponse(r.text, r.metadata)]
  }

  lemma AnnounceStates(r: Router.Routed)
    ensures StatesOf(Announce(r)) == [StateMachine.Speaking]
  {
    var head := Announce(r);
    var one: seq<Event> := [StateEvent(StateMachine.Speaking)];
    assert head[..|head| - 1] == one && one[..|one| - 1] == [];
  }

  /** A single state event broadcasts that state. */
  lemma OneState(a: StateMachine.Activity)
    ensures StatesOf([StateEvent(a)]) == [a]
  {
    var es: seq<Event> := [StateEvent(a)];
    assert es[..0] == [];
  }

  /** A successful turn broadcasts thinking, speaking, idle, in that order. */
  lemma SucceededTurnStates(r: Router.Routed, synth: Speech.Synth)
    ensures StatesOf(TurnEvents(Ok(r), synth)) == [StateMachine.Thinking, StateMachine.Speaking, StateMachine.Idle]
  {
    var first: seq<Event> := [StateEvent(StateMachine.Thinking)];
    var audio := TurnAudio(r.text, synth);
    var tail: seq<Event> := [StateEvent(StateMachine.Idle)];
    StatesOfAppend(first, Announce(r) + audio + tail);
    OneState(StateMachine.Thinking);
    AudioEventsDelivered(Speech.ChunkResults(Speech.Sentences(r.text), synth));
    StatesAround(Announce(r), audio, tail);
    AnnounceStates(r);
    OneState(StateMachine.Idle);
  }

  /** A failed turn broadcasts thinking, then idle. */
  lemma FailedTurnStates(e: string, synth: Speech.Synth)
    ensures StatesOf(TurnEvents(Err(e), synth)) == [StateMachine.Thinking, StateMachine.Idle]
  {
    var first: seq<Event> := [StateEvent(StateMachine.Thinking)];
    var es: seq<Event> := [StateEvent(StateMachine.Idle), TurnError(e)];
    StatesOfAppend(first, es);
    OneState(StateMachine.Thinking);
    assert es[..|es| - 1] == [StateEvent(StateMachine.Idle)];
    OneState(StateMachine.Idle);
  }

  /**
   * A successful turn broadcasts thinking, speaking, idle, in that order; a failed one
   * thinking, then idle. Either way the last state broadcast is idle.
   */
  lemma TurnStates(outcome: Result<Router.Routed, string>, synth: Speech.Synth)
    ensures outcome.Ok? ==>
      StatesOf(TurnEvents(outcome, synth)) == [StateMachine.Thinking, StateMachine.Speaking, StateMachine.Idle]
    ensures outcome.Err? ==>
      StatesOf(TurnEvents(outcome, synth)) == [StateMachine.Thinking, StateMachine.Idle]
  {
    match outcome
    case Ok(r) => SucceededTurnStates(r, synth);
    case Err(e) => FailedTurnStates(e, synth);
  }

  /**
   * A failed turn sends exactly one error, "AI processing error: " and the message, as its
   * last event, and no reply.
   */
  lemma FailedTurnReportsOnce(e: string, synth: Speech.Synth)
    ensures var es := TurnEvents(Err(e), synth);
      && es[|es| - 1] == ErrorEvent("AI processing error: " + e)
      && (forall k :: 0 <= k < |es| - 1 ==> !es[k].ErrorEvent?)
      && (forall k :: 0 <= k < |es| ==> !es[k].AiResponse?)
  {
  }

  /** Three runs of events without errors concatenate to one. */
  lemma NoErrorsConcat(a: seq<Event>, b: seq<Event>, c: seq<Event>)
    requires forall k :: 0 <= k < |a| ==> !a[k].ErrorEvent?
    requires forall k :: 0 <= k < |b| ==> !b[k].ErrorEvent?
    requires forall k :: 0 <= k < |c| ==> !c[k].ErrorEvent?
    ensures forall k :: 0 <= k < |a + b + c| ==> !(a + b + c)[k].ErrorEvent?
  {
    forall k | 0 <= k < |a + b + c|
      ensures !(a + b + c)[k].ErrorEvent?
    {
      if k < |a| {
        assert (a + b + c)[k] == a[k];
      } else if k < |a| + |b| {
        assert (a + b + c)[k] == b[k - |a|];
      } else {
        assert (a + b + c)[k] == c[k - |a| - |b|];
      }
    }
  }

  /**
   * A successful turn sends no error at all, whatever synthesis did, and its last event is
   * the idle state.
   */
  lemma SuccessfulTurnHasNoError(r: Router.Routed, synth: Speech.Synth)
    ensures var es := TurnEvents(Ok(r), synth);
      && es[|es| - 1] == StateEvent(StateMachine.Idle)
      && (forall k :: 0 <= k < |es| ==> !es[k].ErrorEvent?)
  {
    var first: seq<Event> := [StateEvent(StateMachine.Thinking)];
    var audio := TurnAudio(r.text, synth);
    var tail: seq<Event> := [StateEvent(StateMachine.Idle)];
    AppendAssociative(first, Announce(r), audio, tail);
    var head := first + Announce(r);
    assert head == [StateEvent(StateMachine.Thinking), StateEvent(StateMachine.Speaking), AiResponse(r.text, r.metadata)];
    AudioEventsDelivered(Speech.ChunkResults(Speech.Sentences(r.text), synth));
    NoErrorsConcat(head, audio, tail);
  }

  class Server {
    const states: StateMachine.StateManager
    const memory: Memory.MemoryStore
    const router: Router.IntentRouter
    /** Everything sent on the connection so far. */
    var outbox: seq<Event>

    ghost predicate Valid()
      reads this, states
    {
      states.Valid()
    }

    constructor (states: StateMachine.StateManager, memory: Memory.MemoryStore, router: Router.IntentRouter)
      ensures this.states == states && this.memory == memory && this.router == router
      ensures outbox == []
    {
      this.states := states;
      this.memory := memory;
      this.router := router;
      outbox := [];
    }

    /** `broadcastState`. */
    method BroadcastState()
      modifies this
      ensures outbox == old(outbox) + [StateEvent(states.current)]
    {
      outbox := outbox + [StateEvent(states.current)];
    }

    /** A new connection is sent the current state. */
    method OnConnect()
      modifies this
      ensures outbox == old(outbox) + [StateEvent(states.current)]
    {
      BroadcastState();
    }

    /** The delivery loop: awaits each piece's outcome in order and sends the successful ones. */
    method DeliverChunks(results: seq<Option<Speech.Chunk>>)
      modifies this
      ensures outbox == old(outbox) + AudioEvents(results)
    {
      for i := 0 to |results|
        invariant outbox == old(outbox) + AudioEvents(results[..i])
      {
        assert results[..i + 1][..i] == results[..i];
        if results[i].Some? {
          outbox := outbox + [AudioChunk(results[i].value)];
        }
      }
      assert results[..|results|] == results;
    }

    /** The error path of a turn: back to idle, then one error event. */
    method FailTurn(e: string)
      requires Valid()
      modifies this, states
      ensures Valid()
      ensures outbox == old(outbox) + [StateEvent(StateMachine.Idle), TurnError(e)]
      ensures states.current == StateMachine.Idle
      ensures states.history == old(states.history) + [StateMachine.Transition(old(states.current), StateMachine.Idle)]
    {
      var _ := states.SetState("idle");
      BroadcastState();
      outbox := outbox + [TurnError(e)];
    }

    /** Speaking is set and broadcast, then the reply itself is sent. */
    method AnnounceReply(reply: Router.Routed)
      requires Valid()
      modifies this, states
      ensures Valid()
      ensures outbox == old(outbox) + Announce(reply)
      ensures states.current == StateMachine.Speaking
      ensures states.history == old(states.history) + [StateMachine.Transition(old(states.current), StateMachine.Speaking)]
    {
      var _ := states.SetState("speaking");
      BroadcastState();
      outbox := outbox + [AiResponse(reply.text, reply.metadata)];
    }

    /** The reply is sent: speaking, the reply, its audio chunks in order, idle. */
    method SpeakReply(reply: Router.Routed, synth: Speech.Synth)
      requires Valid()
      modifies this, states
      ensures Valid()
      ensures outbox == old(outbox) + Announce(reply) + TurnAudio(reply.text, synth) + [StateEvent(StateMachine.Idle)]
      ensures states.current == StateMachine.Idle
      ensures states.history == old(states.history)
        + [StateMachine.Transition(old(states.current), StateMachine.Speaking),
           StateMachine.Transition(StateMachine.Speaking, StateMachine.Idle)]
    {
      AnnounceReply(reply);
      var pieces := Speech.Sentences(reply.text);
      var results := Speech.ChunkResults(pieces, synth);
      DeliverChunks(results);
      var _ := states.SetState("idle");
      BroadcastState();
    }

    /** The success path of a turn: the reply is stored, then spoken. */
    method SucceedTurn(reply: Router.Routed, synth: Speech.Synth)
      requires Valid()
      requires states.current == StateMachine.Thinking
      modifies this, states, memory
      ensures Valid()
      ensures outbox == old(outbox) + Announce(reply) + TurnAudio(reply.text, synth) + [StateEvent(StateMachine.Idle)]
      ensures memory.messages == Memory.Retained(old(memory.messages) + [Memory.Message("assistant", reply.text)])
      ensures states.history == old(states.history)
        + [StateMachine.Transition(StateMachine.Thinking, StateMachine.Speaking),
           StateMachine.Transition(StateMachine.Speaking, StateMachine.Idle)]
      ensures states.current == StateMachine.Idle
    {
      var _ := memory.AddMessage("assistant", reply.text);
      SpeakReply(reply, synth);
    }

    /** Everything after routing: the success path or the error path of the turn. */
    method FinishTurn(outcome: Result<Router.Routed, string>, synth: Speech.Synth)
      requires Valid()
      requires states.current == StateMachine.Thinking
      modifies this, states, memory
      ensures Valid()
      ensures outbox == old(outbox) + AfterRouting(outcome, synth)
      ensures outcome.Ok? ==>
        memory.messages == Memory.Retained(old(memory.messages) + [Memory.Message("assistant", outcome.value.text)])
      ensures outcome.Err? ==> memory.messages == old(memory.messages)
      ensures states.history == old(states.history) + TransitionsAfterRouting(outcome)
      ensures states.current == StateMachine.Idle
    {
      match outcome
      case Err(e) =>
        FailTurn(e);
      case Ok(reply) =>
        ghost var before := outbox;
        SucceedTurn(reply, synth);
        AppendAssociative(before, Announce(reply), TurnAudio(reply.text, synth), [StateEvent(StateMachine.Idle)]);
    }

    /** The user message is stored, then routed with the context that now ends with it. */
    method StoreAndRoute(input: string, send: Llama.Request -> Llama.Exchange) returns (response: Result<Router.Routed, string>)
      modifies memory
      ensures memory.messages == Memory.Retained(old(memory.messages) + [Memory.Message("user", input)])
      ensures response == Router.Routing(router.modelManager.config, router.modelManager.adapters, input,
                                          TurnContext(old(memory.messages), input), send)
    {
      var _ := memory.AddMessage("user", input);
      var context := memory.GetContext(ContextSize);
      response := router.Route(input, context, send);
    }

    /** Thinking is set and broadcast. */
    method BeginThinking()
      requires Valid()
      modifies this, states
      ensures Valid()
      ensures outbox == old(outbox) + [StateEvent(StateMachine.Thinking)]
      ensures states.current == StateMachine.Thinking
      ensures states.history == old(states.history) + [StateMachine.Transition(old(states.current), StateMachine.Thinking)]
    {
      var _ := states.SetState("thinking");
      BroadcastState();
    }

    /**
     * The opening of a turn: thinking is set and broadcast, the user message is stored,
     * and the input is routed with the context that now ends with it.
     */
    method OpenTurn(input: string, send: Llama.Request -> Llama.Exchange) returns (response: Result<Router.Routed, string>)
      requires Valid()
      modifies this, states, memory
      ensures Valid()
      ensures outbox == old(outbox) + [StateEvent(StateMachine.Thinking)]
      ensures memory.messages == Memory.Retained(old(memory.messages) + [Memory.Message("user", input)])
      ensures states.current == StateMachine.Thinking
      ensures states.history == old(states.history) + [StateMachine.Transition(old(states.current), StateMachine.Thinking)]
      ensures response == Router.Routing(router.modelManager.config, router.modelManager.adapters, input,
                                          TurnContext(old(memory.messages), input), send)
    {
      BeginThinking();
      response := StoreAndRoute(input, send);
    }

    /**
     * `handleTextInput(ws, input)`: thinking; store the user message; route with the
     * context of the last ten messages; then the success or the error path. The events
     * sent are `TurnEvents(outcome, synth)`.
     */
    method HandleTextInput(input: string, send: Llama.Request -> Llama.Exchange, synth: Speech.Synth)
      requires Valid()
      modifies this, states, memory
      ensures Valid()
      ensures var outcome := Router.Routing(router.modelManager.config, router.modelManager.adapters, input,
                                           TurnContext(old(memory.messages), input), send);
        && outbox == old(outbox) + [StateEvent(StateMachine.Thinking)] + AfterRouting(outcome, synth)
        && memory.messages == TurnMemory(old(memory.messages), input, outcome)
        && states.history == old(states.history) + [StateMachine.Transition(old(states.current), StateMachine.Thinking)]
             + TransitionsAfterRouting(outcome)
        && states.current == StateMachine.Idle
    {
      var response := OpenTurn(input, send);
      FinishTurn(response, synth);
    }

    /**
     * The `message` handler: a text input runs a turn, `get_state` sends the current
     * state and changes nothing, any other type is answered with "Unknown message type",
     * and a frame that does not parse with the parser's message.
     */
    method HandleMessage(frame: Inbound, send: Llama.Request -> Llama.Exchange, synth: Speech.Synth)
      requires Valid()
      modifies this, states, memory
      ensures Valid()
      ensures frame.Unparsable? ==>
        && outbox == old(outbox) + [ErrorEvent(frame.parseError)]
        && unchanged(states, memory)
      ensures frame.Parsed? && frame.kind == Some("get_state") ==>
        && outbox == old(outbox) + [StateEvent(states.current)]
        && unchanged(states, memory)
      ensures frame.Parsed? && frame.kind != Some("text_input") && frame.kind != Some("get_state") ==>
        && outbox == old(outbox) + [ErrorEvent("Unknown message type")]
        && unchanged(states, memory)
      ensures frame.Parsed? && frame.kind == Some("text_input") ==>
        var outcome := Router.Routing(router.modelManager.config, router.modelManager.adapters, frame.content,
                                     TurnContext(old(memory.messages), frame.content), send);
        && outbox == old(outbox) + [StateEvent(StateMachine.Thinking)] + AfterRouting(outcome, synth)
        && memory.messages == TurnMemory(old(memory.messages), frame.content, outcome)
        && states.history == old(states.history) + [StateMachine.Transition(old(states.current), StateMachine.Thinking)]
             + TransitionsAfterRouting(outcome)
        && states.current == StateMachine.Idle
    {
      match frame
      case Unparsable(message) =>
        outbox := outbox + [ErrorEvent(message)];
      case Parsed(kind, content) =>
        if kind == Some("text_input") {
          HandleTextInput(content, send, synth);
        } else if kind == Some("get_state") {
          BroadcastState();
        } else {
          outbox := outbox + [ErrorEvent("Unknown message type")];
        }
    }
  }
}

=== FILE: speech.dfy ===
/**
 * How a reply is cut into sentence pieces for speech and which audio chunks a turn
 * delivers: the global regular expression `/[^.!?\n]+[.!?\n]+|[^.!?\n]+$/g`, the
 * trimmed-length filter, per-piece synthesis outcomes, and the in-order delivery.
 */
module Speech {
  import opened Wrappers
  import Js

  /** The characters that end a sentence. */
  predicate IsTerminator(c: char) {
    c == '.' || c == '!' || c == '?' || c == '\n'
  }

  /** The end of the run that starts at `i` of characters that are (`term`) or are not terminators. */
  function RunEnd(s: string, i: nat, term: bool): (j: nat)
    requires i <= |s|
    ensures i <= j <= |s|
    ensures forall k :: i <= k < j ==> IsTerminator(s[k]) == term
    ensures j == |s| || IsTerminator(s[j]) != term
    decreases |s| - i
  {
    if i < |s| && IsTerminator(s[i]) == term then RunEnd(s, i + 1, term) else i
  }

  /**
   * A piece as the pattern produces it: a non-empty run of non-terminators followed by a
   * (possibly empty) run of terminators.
   */
  predicate IsPiece(p: string) {
    && p != []
    && !IsTerminator(p[0])
    && forall k :: 0 < k < |p| && IsTerminator(p[k - 1]) ==> IsTerminator(p[k])
  }

  /**
   * The successive matches of the pattern from position `i`. Where neither alternative
   * matches (at a terminator) the search moves on by one character; otherwise the first
   * alternative takes the maximal non-terminator run and the terminator run after it, and
   * the second takes a final run without terminators.
   */
  function Matches(s: string, i: nat): (ps: seq<string>)
    requires i <= |s|
    ensures forall n :: 0 <= n < |ps| ==> IsPiece(ps[n])
    ensures forall n :: 0 <= n < |ps| - 1 ==> ps[n] != [] && IsTerminator(ps[n][|ps[n]| - 1])
    ensures ps == [] <==> forall k :: i <= k < |s| ==> IsTerminator(s[k])
    decreases |s| - i
  {
    if i == |s| then []
    else if IsTerminator(s[i]) then Matches(s, i + 1)
    else
      var j := RunEnd(s, i, false);
      var k := RunEnd(s, j, true);
      var rest := Matches(s, k);
      RunIsPiece(s, i, j, k);
      assert rest != [] ==> k < |s| && !IsTerminator(s[k]) && j < k;
      var ps := [s[i..k]] + rest;
      assert forall n :: 0 < n < |ps| ==> ps[n] == rest[n - 1];
      ps
  }

  /** A run of non-terminators from `i` followed by the terminator run after it is a piece. */
  lemma RunIsPiece(s: string, i: nat, j: nat, k: nat)
    requires i < |s| && !IsTerminator(s[i])
    requires j == RunEnd(s, i, false) && k == RunEnd(s, j, true)
    ensures IsPiece(s[i..k])
    ensures j < k ==> IsTerminator(s[i..k][k - i - 1])
  {
    var p := s[i..k];
    assert p[0] == s[i];
    forall m | 0 < m < |p| && IsTerminator(p[m - 1])
      ensures IsTerminator(p[m])
    {
      assert p[m - 1] == s[i + m - 1] && p[m] == s[i + m];
    }
  }

  /** The pieces in order, glued back together. */
  function Concat(ps: seq<string>): string {
    if ps == [] then "" else ps[0] + Concat(ps[1..])
  }

  /** The matches cover the rest of the text once its leading terminators are dropped. */
  lemma {:induction false} MatchesCover(s: string, i: nat)
    requires i <= |s|
    ensures Concat(Matches(s, i)) == s[RunEnd(s, i, true)..]
    decreases |s| - i
  {
    if i == |s| {
    } else if IsTerminator(s[i]) {
      MatchesCover(s, i + 1);
    } else {
      var j := RunEnd(s, i, false);
      var k := RunEnd(s, j, true);
      MatchesCover(s, k);
      assert RunEnd(s, k, true) == k;
      assert [s[i..k]] + Matches(s, k) == Matches(s, i);
      assert s[i..k] + s[k..] == s[i..];
    }
  }

  /** `text.match(pattern) || [text]`: the sentence pieces of a reply. */
  function Sentences(text: string): (ps: seq<string>)
    ensures ps != []
  {
    var m := Matches(text, 0);
    if m == [] then [text] else m
  }

  /**
   * The pieces glued together give the reply without its leading terminators; when the
   * pattern finds nothing (a reply of terminators only, or an empty one) the single piece
   * is the whole reply.
   */
  lemma SentencesCover(text: string)
    ensures Matches(text, 0) != [] ==> Concat(Sentences(text)) == text[RunEnd(text, 0, true)..]
    ensures Matches(text, 0) == [] ==> Sentences(text) == [text]
    ensures Matches(text, 0) == [] <==> forall k :: 0 <= k < |text| ==> IsTerminator(text[k])
  {
    MatchesCover(text, 0);
  }

  // ---------------------------------------------------------------- audio chunks

  /** Audio bytes as the speech service returns them. */
  type Audio = seq<bv8>

  /** An `ai_audio_chunk` payload (its base64 encoding and timestamp are not modelled). */
  datatype Chunk = Chunk(audio: Audio, index: nat, isLast: bool)

  /**
   * Speech synthesis as a given outcome per piece: `synth(i, text)` is the audio for the
   * trimmed text of piece `i`, or `None` when synthesis failed.
   */
  type Synth = (nat, string) -> Option<Audio>

  /** How many UTF-16 code units a trimmed piece needs to be spoken. */
  const MinSpokenLength: int := 2

  /** The outcome for piece `i`: no chunk for a short piece or a failed synthesis. */
  function ChunkFor(pieces: seq<string>, i: nat, synth: Synth): (c: Option<Chunk>)
    requires i < |pieces|
    ensures c.Some? <==> Js.Length(Js.Trim(pieces[i])) >= MinSpokenLength && synth(i, Js.Trim(pieces[i])).Some?
    ensures c.Some? ==> c.value == Chunk(synth(i, Js.Trim(pieces[i])).value, i, i == |pieces| - 1)
  {
    var trimmed := Js.Trim(pieces[i]);
    if Js.Length(trimmed) < MinSpokenLength then None
    else
      match synth(i, trimmed)
      case None => None
      case Some(audio) => Some(Chunk(audio, i, i == |pieces| - 1))
  }

  /** A piece holding one character outside the Basic Multilingual Plane is long enough to speak. */
  lemma AstralPieceIsSpoken(synth: Synth)
    requires synth(1, "\U{1F600}").Some?
    ensures ChunkFor(["Hello!", " \U{1F600}"], 1, synth).Some?
  {
    var piece := " \U{1F600}";
    assert Js.SkipSpace(piece, 1) == 1;
    assert Js.SkipSpace(piece, 0) == 1;
    assert Js.SkipSpaceBack(piece, 1, 2) == 2;
    assert Js.Trim(piece) == piece[1..2] == "\U{1F600}";
  }

  /** The per-piece outcomes, in piece order. */
  function ChunkResults(pieces: seq<string>, synth: Synth): (rs: seq<Option<Chunk>>)
    ensures |rs| == |pieces|
    ensures forall i :: 0 <= i < |rs| ==> rs[i] == ChunkFor(pieces, i, synth)
  {
    seq(|pieces|, i requires 0 <= i < |pieces| => ChunkFor(pieces, i, synth))
  }

  /** The chunks that are sent: the successful outcomes, in order. */
  function Delivered(rs: seq<Option<Chunk>>): (cs: seq<Chunk>)
    ensures |cs| <= |rs|
  {
    if rs == [] then []
    else Delivered(rs[..|rs| - 1]) + (if rs[|rs| - 1].Some? then [rs[|rs| - 1].value] else [])
  }

  /** Every outcome carries the index of its own slot. */
  ghost predicate SlotIndexed(rs: seq<Option<Chunk>>) {
    forall i :: 0 <= i < |rs| && rs[i].Some? ==> rs[i].value.index == i
  }

  /**
   * Delivered chunks come in strictly ascending index order, each index names a slot whose
   * outcome is that chunk, and every successful slot is delivered.
   */
  lemma {:induction false} DeliveredInOrder(rs: seq<Option<Chunk>>)
    requires SlotIndexed(rs)
    ensures forall a, b :: 0 <= a < b < |Delivered(rs)| ==> Delivered(rs)[a].index < Delivered(rs)[b].index
    ensures forall c :: c in Delivered(rs) ==> c.index < |rs| && rs[c.index] == Some(c)
    ensures forall i :: 0 <= i < |rs| && rs[i].Some? ==> rs[i].value in Delivered(rs)
  {
    if rs != [] {
      var init := rs[..|rs| - 1];
      assert SlotIndexed(init);
      DeliveredInOrder(init);
    }
  }

  /** The outcomes of a reply's pieces are slot-indexed. */
  lemma ChunkResultsIndexed(pieces: seq<string>, synth: Synth)
    ensures SlotIndexed(ChunkResults(pieces, synth))
  {
  }

  /**
   * The chunks of a turn: indices strictly ascending and below the number of pieces, a
   * chunk for exactly the pieces long enough and synthesised, and `isLast` only on the
   * final piece's chunk.
   */
  lemma TurnChunks(pieces: seq<string>, synth: Synth)
    ensures var d := Delivered(ChunkResults(pieces, synth));
      && (forall a, b :: 0 <= a < b < |d| ==> d[a].index < d[b].index)
      && (forall c :: c in d ==> c.index < |pieces| && (c.isLast <==> c.index == |pieces| - 1))
      && (forall i :: 0 <= i < |pieces| ==>
            ((exists c :: c in d && c.index == i) <==> ChunkFor(pieces, i, synth).Some?))
  {
    var rs := ChunkResults(pieces, synth);
    DeliveredInOrder(rs);
    var d := Delivered(rs);
    forall i | 0 <= i < |pieces|
      ensures (exists c :: c in d && c.index == i) <==> ChunkFor(pieces, i, synth).Some?
    {
      if ChunkFor(pieces, i, synth).Some? {
        assert rs[i].value in d && rs[i].value.index == i;
      }
    }
  }
}

=== FILE: state_manager.dfy ===
/**
 * The assistant's activity state machine (`StateManager`): four activities, a validating
 * setter that records every transition, and read-only queries.
 */
module StateMachine {
  import opened Wrappers
  import Js

  /** The four valid states. */
  datatype Activity = Idle | Listening | Thinking | Speaking

  /** The state's name on the wire. */
  function Name(a: Activity): string {
    match a
    case Idle => "idle"
    case Listening => "listening"
    case Thinking => "thinking"
    case Speaking => "speaking"
  }

  /** `validStates.includes(s)`, giving the state named `s`. */
  function Parse(s: string): (r: Option<Activity>)
    ensures r.Some? ==> Name(r.value) == s
    ensures r.None? ==> forall a: Activity :: Name(a) != s
  {
    if s == "idle" then Some(Idle)
    else if s == "listening" then Some(Listening)
    else if s == "thinking" then Some(Thinking)
    else if s == "speaking" then Some(Speaking)
    else None
  }

  /** Every state name is recognised as that state. */
  lemma ParseName(a: Activity)
    ensures Parse(Name(a)) == Some(a)
  {
  }

  /** The message of the error thrown for an unknown state. */
  function InvalidState(s: string): string {
    "Invalid state: " + s + ". Valid states: idle, listening, thinking, speaking"
  }

  /** A recorded transition; its timestamp is not modelled. */
  datatype Transition = Transition(from: Activity, to: Activity)

  /** The transitions form a path that starts at `Idle` and ends at `current`. */
  ghost predicate IsPath(history: seq<Transition>, current: Activity) {
    && (history == [] ==> current == Idle)
    && (history != [] ==> history[0].from == Idle && history[|history| - 1].to == current)
    && (forall i :: 0 < i < |history| ==> history[i].from == history[i - 1].to)
  }

  class StateManager {
    var current: Activity
    var history: seq<Transition>

    ghost predicate Valid()
      reads this
    {
      IsPath(history, current)
    }

    /** A new manager is idle and has no history. */
    constructor ()
      ensures Valid()
      ensures current == Idle && history == []
    {
      current := Idle;
      history := [];
    }

    /**
     * `setState(s)`: an unknown name is an error and changes nothing; a valid one becomes
     * the current state and its transition is appended and returned.
     */
    method SetState(s: string) returns (r: Result<Transition, string>)
      requires Valid()
      modifies this
      ensures Valid()
      ensures Parse(s).None? ==>
        r == Err(InvalidState(s)) && current == old(current) && history == old(history)
      ensures Parse(s).Some? ==>
        && r == Ok(Transition(old(current), Parse(s).value))
        && current == Parse(s).value
        && history == old(history) + [r.value]
    {
      var next := Parse(s);
      if next.None? {
        return Err(InvalidState(s));
      }
      var t := Transition(current, next.value);
      current := next.value;
      history := history + [t];
      r := Ok(t);
    }

    /** `getState()`: the name of the current state, always a valid one. */
    function GetState(): (s: string)
      reads this
      ensures Parse(s) == Some(current)
    {
      ParseName(current);
      Name(current)
    }

    /** `getHistory(limit)`: the last `limit` transitions, in order (all of them for 0). */
    function GetHistory(limit: int): (r: seq<Transition>)
      reads this
      ensures limit >= 1 ==> r == history[|history| - Js.Min(limit, |history|)..]
      ensures limit == 0 ==> r == history
      ensures limit < 0 ==> r == history[Js.Min(-limit, |history|)..]
    {
      Js.SliceFrom(history, -limit)
    }

    /** `isState(s)`: `s` names the current state. */
    function IsState(s: string): (b: bool)
      reads this
      ensures b <==> Parse(s) == Some(current)
    {
      ParseName(current);
      s == Name(current)
    }

    /** `reset()`: a transition to `Idle`. */
    method Reset()
      requires Valid()
      modifies this
      ensures Valid()
      ensures current == Idle
      ensures history == old(history) + [Transition(old(current), Idle)]
    {
      var r := SetState("idle");
    }
  }
}

=== FILE: ui.dfy ===
/**
 * The browser client (`UIController`): the reconnect counter with its linear backoff, the
 * guard on sending, the gate on animator updates, and the FIFO audio queue whose chunks
 * are played one at a time behind the `isPlayingAudio` flag.
 *
 * The page, the WebSocket object, the timers and the audio player belong to the browser.
 * What the controller asks of them is appended to the `effects` log; what they report back
 * (the socket opening or closing, a chunk ending, playback being refused, a server message,
 * a zero-delay timer firing) arrives as a call of the matching method. Whether a chunk's
 * base64 text decodes is the parameter `decodes`.
 */
module Ui {
  import Js

  /** One `ai_audio_chunk` message as queued: base64 audio and its position in the reply. */
  datatype AudioData = AudioData(audio: string, index: int)

  /** A frame the client sends: `{type: 'text_input', content}` (the timestamp is not modelled). */
  datatype Outbound = TextInput(content: string)

  /** What the controller asks of the page, the socket, the timers and the player. */
  datatype Effect =
    | ConnectionStatus(status: string)             // the status indicator's class
    | SystemMessage(content: string, kind: string) // `addSystemMessage`
    | ChatMessage(role: string, content: string)   // `addMessage`
    | OpenSocket(url: string)                      // `new WebSocket(url)`
    | SocketSend(frame: Outbound)                  // `ws.send`
    | ReconnectTimer(delay: int)                   // `setTimeout(() => this.connect(), delay)`
    | StateLabel(text: string)                     // the state text
    | AnimatorState(state: string)                 // `bubbleAnimator.setState`
    | StartPlayback(chunk: AudioData)              // a decoded chunk handed to `audio.play()`

  /** A server message once `JSON.parse` has accepted it, by its `type`. */
  datatype Incoming =
    | StateMessage(state: string)
    | AiResponseMessage(content: string)
    | AudioChunkMessage(data: AudioData)
    | ErrorMessage(message: string)
    | InfoMessage(message: string)
    | OtherMessage  // any other type is only logged

  const MaxReconnectAttempts: int := 5
  const ReconnectDelay: int := 2000

  // ---------------------------------------------------------------- connection

  /** The address `connect` derives from the page's protocol and host. */
  function SocketUrl(protocol: string, host: string): (url: string)
    ensures |url| == (if protocol == "https:" then 6 else 5) + (if host == [] || protocol == "file:" then 14 else |host|)
    ensures protocol == "https:" ==> url[..6] == "wss://"
    ensures protocol != "https:" ==> url[..5] == "ws://"
    ensures protocol == "https:" <==> url[..4] == "wss:"
    ensures host == [] || protocol == "file:" ==> |url| >= 14 && url[|url| - 14..] == "localhost:3113"
    ensures host != [] && protocol != "file:" ==> |url| >= |host| && url[|url| - |host|..] == host
  {
    var scheme := if protocol == "https:" then "wss:" else "ws:";
    var h := if host == [] || protocol == "file:" then "localhost:3113" else host;
    var url := scheme + "//" + h;
    assert url[..4] == if protocol == "https:" then "wss:" else "ws:/";
    url
  }

  /** The attempt counter after `scheduleReconnect`: one more, unless the maximum is reached. */
  function AttemptsAfter(attempts: int): int {
    if attempts >= MaxReconnectAttempts then attempts else attempts + 1
  }

  /** What `scheduleReconnect` does at a given count: give up with a note, or arm the timer. */
  function ReconnectEffects(attempts: int): seq<Effect> {
    if attempts >= MaxReconnectAttempts then
      [SystemMessage("Max reconnection attempts reached. Please refresh the page.", "error")]
    else
      [ConnectionStatus("connecting"), ReconnectTimer(ReconnectDelay * AttemptsAfter(attempts))]
  }

  /** The delays armed by `n` failed connections in a row, starting at count `attempts`. */
  function ReconnectDelays(attempts: int, n: nat): seq<int>
    decreases n
  {
    if n == 0 || attempts >= MaxReconnectAttempts then []
    else [ReconnectDelay * AttemptsAfter(attempts)] + ReconnectDelays(AttemptsAfter(attempts), n - 1)
  }

  /**
   * Linear backoff: from count `attempts`, successive failures wait 2000 ms times the new
   * count, and at most `5 - attempts` reconnections are ever scheduled.
   */
  lemma {:induction false} BackoffIsLinear(attempts: nat, n: nat)
    requires attempts <= MaxReconnectAttempts
    decreases n
    ensures |ReconnectDelays(attempts, n)| == Js.Min(n, MaxReconnectAttempts - attempts)
    ensures forall k :: 0 <= k < |ReconnectDelays(attempts, n)| ==>
      ReconnectDelays(attempts, n)[k] == ReconnectDelay * (attempts + k + 1)
  {
    if n > 0 && attempts < MaxReconnectAttempts {
      BackoffIsLinear(attempts + 1, n - 1);
      var rest := ReconnectDelays(attempts + 1, n - 1);
      assert ReconnectDelays(attempts, n) == [ReconnectDelay * (attempts + 1)] + rest;
    }
  }

  /** From a fresh connection, failures schedule 2 s, 4 s, 6 s, 8 s, 10 s, then nothing. */
  lemma FreshBackoff(n: nat)
    requires n >= MaxReconnectAttempts
    ensures ReconnectDelays(0, n) == [2000, 4000, 6000, 8000, 10000]
  {
    BackoffIsLinear(0, n);
  }

  // ---------------------------------------------------------------- state label

  /** `updateState(state)`: the label, and the animator only while no audio is playing. */
  function StateEffects(state: string, hasAnimator: bool, playing: bool): seq<Effect> {
    [StateLabel(Js.ToUpper(state))] + (if hasAnimator && !playing then [AnimatorState(state)] else [])
  }

  /** The animator is told about a state exactly when one is present and no audio plays. */
  lemma StateGate(state: string, hasAnimator: bool, playing: bool)
    ensures AnimatorState(state) in StateEffects(state, hasAnimator, playing) <==> hasAnimator && !playing
    ensures StateEffects(state, hasAnimator, playing)[0] == StateLabel(Js.ToUpper(state))
  {
    var es := StateEffects(state, hasAnimator, playing);
    if !(hasAnimator && !playing) {
      assert es == [StateLabel(Js.ToUpper(state))];
    }
  }

  // ---------------------------------------------------------------- audio queue

  /** `bubbleAnimator.setState(state)` when an animator is present. */
  function Animate(hasAnimator: bool, state: string): seq<Effect> {
    if hasAnimator then [AnimatorState(state)] else []
  }

  /**
   * `playAudio(chunk.audio, 'mp3', onEnded)` up to the point where it either starts the
   * player or calls `onEnded`: nothing with audio disabled; otherwise the animator speaks,
   * and a chunk that fails to decode is cleaned up at once.
   */
  function ChunkEffects(c: AudioData, enabled: bool, hasAnimator: bool, decodes: AudioData -> bool): seq<Effect> {
    if !enabled then []
    else Animate(hasAnimator, "speaking") + (if decodes(c) then [StartPlayback(c)] else Animate(hasAnimator, "idle"))
  }

  /** The effects of taking the chunks `cs` off the queue, in order. */
  function DrainEffects(cs: seq<AudioData>, enabled: bool, hasAnimator: bool, decodes: AudioData -> bool): seq<Effect> {
    if cs == [] then []
    else DrainEffects(cs[..|cs| - 1], enabled, hasAnimator, decodes) + ChunkEffects(cs[|cs| - 1], enabled, hasAnimator, decodes)
  }

  /** The position of the first chunk that would start playing, or `|q|` when none would. */
  function FirstPlayable(q: seq<AudioData>, enabled: bool, decodes: AudioData -> bool): (k: nat)
    ensures k <= |q|
  {
    if q == [] then 0
    else if enabled && decodes(q[0]) then 0
    else 1 + FirstPlayable(q[1..], enabled, decodes)
  }

  /** Every chunk ahead of the first playable one is skipped; that one, if any, plays. */
  lemma {:induction false} FirstPlayableIsFirst(q: seq<AudioData>, enabled: bool, decodes: AudioData -> bool)
    ensures forall i :: 0 <= i < FirstPlayable(q, enabled, decodes) ==> !(enabled && decodes(q[i]))
    ensures FirstPlayable(q, enabled, decodes) < |q| ==> enabled && decodes(q[FirstPlayable(q, enabled, decodes)])
  {
    if q != [] && !(enabled && decodes(q[0])) {
      FirstPlayableIsFirst(q[1..], enabled, decodes);
      forall i | 1 <= i < FirstPlayable(q, enabled, decodes)
        ensures !(enabled && decodes(q[i]))
      {
        assert q[i] == q[1..][i - 1];
      }
    }
  }

  /** Taking chunks in order, the `i`-th plays exactly when it is the first playable one. */
  lemma PlaysAt(q: seq<AudioData>, enabled: bool, decodes: AudioData -> bool, i: nat)
    requires i < |q| && i <= FirstPlayable(q, enabled, decodes)
    ensures enabled && decodes(q[i]) <==> i == FirstPlayable(q, enabled, decodes)
  {
    FirstPlayableIsFirst(q, enabled, decodes);
  }

  /** How many chunks one `processAudioQueue` takes: up to and including the one that plays. */
  function Taken(q: seq<AudioData>, enabled: bool, decodes: AudioData -> bool): (n: nat)
    ensures n <= |q|
  {
    var k := FirstPlayable(q, enabled, decodes);
    if k < |q| then k + 1 else |q|
  }

  /** The chunks handed to the player in a list of effects, in order. */
  function Plays(es: seq<Effect>): seq<AudioData> {
    if es == [] then []
    else Plays(es[..|es| - 1]) + (if es[|es| - 1].StartPlayback? then [es[|es| - 1].chunk] else [])
  }

  lemma {:induction false} PlaysAppend(a: seq<Effect>, b: seq<Effect>)
    ensures Plays(a + b) == Plays(a) + Plays(b)
  {
    if b == [] {
      assert a + b == a;
    } else {
      var c := b[..|b| - 1];
      assert (a + b)[..|a + b| - 1] == a + c;
      PlaysAppend(a, c);
    }
  }

  /** One chunk is handed to the player exactly when audio is on and it decodes. */
  lemma ChunkPlays(c: AudioData, enabled: bool, hasAnimator: bool, decodes: AudioData -> bool)
    ensures Plays(ChunkEffects(c, enabled, hasAnimator, decodes)) == if enabled && decodes(c) then [c] else []
  {
    var es := ChunkEffects(c, enabled, hasAnimator, decodes);
    if enabled {
      var head := Animate(hasAnimator, "speaking");
      var tail := if decodes(c) then [StartPlayback(c)] else Animate(hasAnimator, "idle");
      PlaysAppend(head, tail);
      assert Plays(head) == [] by {
        if hasAnimator {
          assert head[..0] == [];
        }
      }
      if decodes(c) {
        assert tail[..0] == [];
      } else if hasAnimator {
        assert tail[..0] == [];
      }
    }
  }

  /** Chunks that do not play hand nothing to the player. */
  lemma {:induction false} SkippedChunksPlayNothing(cs: seq<AudioData>, enabled: bool, hasAnimator: bool, decodes: AudioData -> bool)
    requires forall i :: 0 <= i < |cs| ==> !(enabled && decodes(cs[i]))
    ensures Plays(DrainEffects(cs, enabled, hasAnimator, decodes)) == []
  {
    if cs != [] {
      var init := cs[..|cs| - 1];
      SkippedChunksPlayNothing(init, enabled, hasAnimator, decodes);
      PlaysAppend(DrainEffects(init, enabled, hasAnimator, decodes), ChunkEffects(cs[|cs| - 1], enabled, hasAnimator, decodes));
      ChunkPlays(cs[|cs| - 1], enabled, hasAnimator, decodes);
    }
  }

  /** Taking skipped chunks and then a playable one starts exactly that one. */
  lemma SkippedThenPlayed(q: seq<AudioData>, k: nat, enabled: bool, hasAnimator: bool, decodes: AudioData -> bool)
    requires k < |q|
    requires forall i :: 0 <= i < k ==> !(enabled && decodes(q[i]))
    requires enabled && decodes(q[k])
    ensures Plays(DrainEffects(q[..k + 1], enabled, hasAnimator, decodes)) == [q[k]]
  {
    var cs := q[..k + 1];
    assert cs[..|cs| - 1] == q[..k] && cs[|cs| - 1] == q[k];
    assert DrainEffects(cs, enabled, hasAnimator, decodes)
      == DrainEffects(q[..k], enabled, hasAnimator, decodes) + ChunkEffects(q[k], enabled, hasAnimator, decodes);
    SkippedChunksPlayNothing(q[..k], enabled, hasAnimator, decodes);
    PlaysAppend(DrainEffects(q[..k], enabled, hasAnimator, decodes), ChunkEffects(q[k], enabled, hasAnimator, decodes));
    ChunkPlays(q[k], enabled, hasAnimator, decodes);
  }

  /**
   * One `processAudioQueue` starts at most one chunk: the first playable one, after every
   * chunk ahead of it has been skipped.
   */
  lemma AtMostOneStarts(q: seq<AudioData>, enabled: bool, hasAnimator: bool, decodes: AudioData -> bool)
    ensures var k := FirstPlayable(q, enabled, decodes);
      Plays(DrainEffects(q[..Taken(q, enabled, decodes)], enabled, hasAnimator, decodes))
        == if k < |q| then [q[k]] else []
  {
    var k := FirstPlayable(q, enabled, decodes);
    FirstPlayableIsFirst(q, enabled, decodes);
    if k < |q| {
      SkippedThenPlayed(q, k, enabled, hasAnimator, decodes);
    } else {
      assert q[..|q|] == q;
      SkippedChunksPlayNothing(q, enabled, hasAnimator, decodes);
    }
  }

  // ---------------------------------------------------------------- the controller

  class UiController {
    var reconnectAttempts: int
    const maxReconnectAttempts: int
    const reconnectDelay: int
    /** `ws` exists and its `readyState` is `OPEN`. */
    var socketOpen: bool
    var audioEnabled: bool
    var audioQueue: seq<AudioData>
    var isPlayingAudio: bool
    /** `window.bubbleAnimator` is present. */
    const hasAnimator: bool
    /** The text in the input box. */
    var input: string
    /** Everything asked of the page, the socket, the timers and the player so far. */
    var effects: seq<Effect>
    /** Every chunk queued so far, and those taken off the queue, in order. */
    ghost var arrived: seq<AudioData>
    ghost var taken: seq<AudioData>

    /**
     * The counter stays within the maximum, and the queue is first in, first out: the
     * chunks taken so far followed by those waiting are exactly the chunks queued.
     */
    ghost predicate Valid()
      reads this
    {
      && maxReconnectAttempts == MaxReconnectAttempts && reconnectDelay == ReconnectDelay
      && 0 <= reconnectAttempts <= maxReconnectAttempts
      && taken + audioQueue == arrived
    }

    /** `new UIController()` followed by its first `connect()`. */
    constructor (hasAnimator: bool, protocol: string, host: string, constructionFails: bool)
      ensures Valid()
      ensures this.hasAnimator == hasAnimator
      ensures audioEnabled && !isPlayingAudio && audioQueue == [] && input == [] && !socketOpen
      ensures !constructionFails ==> reconnectAttempts == 0 && effects == [OpenSocket(SocketUrl(protocol, host))]
      ensures constructionFails ==> reconnectAttempts == 1 && effects == [ConnectionStatus("disconnected")] + ReconnectEffects(0)
    {
      reconnectAttempts := 0;
      maxReconnectAttempts := MaxReconnectAttempts;
      reconnectDelay := ReconnectDelay;
      socketOpen := false;
      audioEnabled := true;
      audioQueue := [];
      isPlayingAudio := false;
      this.hasAnimator := hasAnimator;
      input := [];
      effects := [];
      arrived := [];
      taken := [];
      new;
      Connect(protocol, host, constructionFails);
    }

    /**
     * `connect()`: a socket is opened at the page's address; when its construction throws,
     * the indicator shows disconnected and a reconnection is scheduled.
     */
    method Connect(protocol: string, host: string, constructionFails: bool)
      requires Valid()
      modifies this
      ensures Valid()
      ensures !constructionFails ==>
        effects == old(effects) + [OpenSocket(SocketUrl(protocol, host))] && reconnectAttempts == old(reconnectAttempts)
      ensures constructionFails ==>
        effects == old(effects) + [ConnectionStatus("disconnected")] + ReconnectEffects(old(reconnectAttempts))
        && reconnectAttempts == AttemptsAfter(old(reconnectAttempts))
      ensures !socketOpen
      ensures audioEnabled == old(audioEnabled) && audioQueue == old(audioQueue) && isPlayingAudio == old(isPlayingAudio)
      ensures input == old(input) && arrived == old(arrived) && taken == old(taken)
    {
      socketOpen := false;
      if constructionFails {
        effects := effects + [ConnectionStatus("disconnected")];
        ScheduleReconnect();
      } else {
        effects := effects + [OpenSocket(SocketUrl(protocol, host))];
      }
    }

    /** `handleOpen()`: the counter is reset and the connection announced. */
    method HandleOpen()
      requires Valid()
      modifies this
      ensures Valid()
      ensures reconnectAttempts == 0 && socketOpen
      ensures effects == old(effects) + [ConnectionStatus("connected"), SystemMessage("Connected to AI Core", "info")]
      ensures audioEnabled == old(audioEnabled) && audioQueue == old(audioQueue) && isPlayingAudio == old(isPlayingAudio)
      ensures input == old(input) && arrived == old(arrived) && taken == old(taken)
    {
      reconnectAttempts := 0;
      socketOpen := true;
      effects := effects + [ConnectionStatus("connected"), SystemMessage("Connected to AI Core", "info")];
    }

    /** `handleError()`: the indicator shows disconnected. */
    method HandleError()
      requires Valid()
      modifies this
      ensures Valid()
      ensures effects == old(effects) + [ConnectionStatus("disconnected")]
      ensures reconnectAttempts == old(reconnectAttempts) && socketOpen == old(socketOpen)
      ensures audioEnabled == old(audioEnabled) && audioQueue == old(audioQueue) && isPlayingAudio == old(isPlayingAudio)
      ensures input == old(input) && arrived == old(arrived) && taken == old(taken)
    {
      effects := effects + [ConnectionStatus("disconnected")];
    }

    /** `handleClose()`: disconnected, the state shown as offline, a note, then a reconnection. */
    method HandleClose()
      requires Valid()
      modifies this
      ensures Valid()
      ensures !socketOpen
      ensures effects == old(effects) + [ConnectionStatus("disconnected")]
        + StateEffects("offline", hasAnimator, isPlayingAudio)
        + [SystemMessage("Disconnected from server", "info")] + ReconnectEffects(old(reconnectAttempts))
      ensures reconnectAttempts == AttemptsAfter(old(reconnectAttempts))
      ensures audioEnabled == old(audioEnabled) && audioQueue == old(audioQueue) && isPlayingAudio == old(isPlayingAudio)
      ensures input == old(input) && arrived == old(arrived) && taken == old(taken)
    {
      socketOpen := false;
      effects := effects + [ConnectionStatus("disconnected")];
      UpdateState("offline");
      effects := effects + [SystemMessage("Disconnected from server", "info")];
      ScheduleReconnect();
    }

    /**
     * `scheduleReconnect()`: at the maximum only a note is shown; otherwise the counter
     * grows by one and a timer is armed for `reconnectDelay` times the new count.
     */
    method ScheduleReconnect()
      requires Valid()
      modifies this
      ensures Valid()
      ensures old(reconnectAttempts) >= maxReconnectAttempts ==>
        reconnectAttempts == old(reconnectAttempts)
        && effects == old(effects) + [SystemMessage("Max reconnection attempts reached. Please refresh the page.", "error")]
      ensures old(reconnectAttempts) < maxReconnectAttempts ==>
        reconnectAttempts == old(reconnectAttempts) + 1
        && effects == old(effects) + [ConnectionStatus("connecting"), ReconnectTimer(reconnectDelay * reconnectAttempts)]
      ensures effects == old(effects) + ReconnectEffects(old(reconnectAttempts))
      ensures reconnectAttempts == AttemptsAfter(old(reconnectAttempts))
      ensures socketOpen == old(socketOpen)
      ensures audioEnabled == old(audioEnabled) && audioQueue == old(audioQueue) && isPlayingAudio == old(isPlayingAudio)
      ensures input == old(input) && arrived == old(arrived) && taken == old(taken)
    {
      if reconnectAttempts >= maxReconnectAttempts {
        effects := effects + [SystemMessage("Max reconnection attempts reached. Please refresh the page.", "error")];
        return;
      }
      reconnectAttempts := reconnectAttempts + 1;
      effects := effects + [ConnectionStatus("connecting")];
      var delay := reconnectDelay * reconnectAttempts;
      effects := effects + [ReconnectTimer(delay)];
    }

    /** The user edits the input box. */
    method SetInput(text: string)
      requires Valid()
      modifies this
      ensures Valid()
      ensures input == text
      ensures effects == old(effects) && reconnectAttempts == old(reconnectAttempts) && socketOpen == old(socketOpen)
      ensures audioEnabled == old(audioEnabled) && audioQueue == old(audioQueue) && isPlayingAudio == old(isPlayingAudio)
      ensures arrived == old(arrived) && taken == old(taken)
    {
      input := text;
    }

    /**
     * `sendMessage()`: nothing for white space alone or without an open socket; otherwise
     * the trimmed text is shown, sent as `text_input`, and the input box cleared.
     */
    method SendMessage()
      requires Valid()
      modifies this
      ensures Valid()
      ensures Js.AllWhitespace(old(input)) || !socketOpen ==> effects == old(effects) && input == old(input)
      ensures !Js.AllWhitespace(old(input)) && socketOpen ==>
        var text := Js.Trim(old(input));
        && text != [] && !Js.IsWhitespace(text[0]) && !Js.IsWhitespace(text[|text| - 1])
        && effects == old(effects) + [ChatMessage("user", text), SocketSend(TextInput(text))]
        && input == []
      ensures reconnectAttempts == old(reconnectAttempts) && socketOpen == old(socketOpen)
      ensures audioEnabled == old(audioEnabled) && audioQueue == old(audioQueue) && isPlayingAudio == old(isPlayingAudio)
      ensures arrived == old(arrived) && taken == old(taken)
    {
      var text := Js.Trim(input);
      if text == [] || !socketOpen {
        return;
      }
      effects := effects + [ChatMessage("user", text), SocketSend(TextInput(text))];
      input := [];
    }

    /** `updateState(state)`: the label always; the animator only while no audio plays. */
    method UpdateState(state: string)
      requires Valid()
      modifies this
      ensures Valid()
      ensures effects == old(effects) + StateEffects(state, hasAnimator, isPlayingAudio)
      ensures isPlayingAudio ==> effects == old(effects) + [StateLabel(Js.ToUpper(state))]
      ensures reconnectAttempts == old(reconnectAttempts) && socketOpen == old(socketOpen)
      ensures audioEnabled == old(audioEnabled) && audioQueue == old(audioQueue) && isPlayingAudio == old(isPlayingAudio)
      ensures input == old(input) && arrived == old(arrived) && taken == old(taken)
    {
      effects := effects + [StateLabel(Js.ToUpper(state))];
      if hasAnimator && !isPlayingAudio {
        effects := effects + [AnimatorState(state)];
      }
    }

    /** The audio toggle: audio is switched and the change announced. */
    method ToggleAudio()
      requires Valid()
      modifies this
      ensures Valid()
      ensures audioEnabled == !old(audioEnabled)
      ensures effects == old(effects) + [SystemMessage("Audio " + (if audioEnabled then "enabled" else "disabled"), "info")]
      ensures reconnectAttempts == old(reconnectAttempts) && socketOpen == old(socketOpen)
      ensures audioQueue == old(audioQueue) && isPlayingAudio == old(isPlayingAudio)
      ensures input == old(input) && arrived == old(arrived) && taken == old(taken)
    {
      audioEnabled := !audioEnabled;
      effects := effects + [SystemMessage("Audio " + (if audioEnabled then "enabled" else "disabled"), "info")];
    }

    /**
     * `queueAudioChunk(data)`: with audio disabled the chunk is dropped; otherwise it joins
     * the tail of the queue (the zero-delay timer that follows is a later call of
     * `ProcessAudioQueue`).
     */
    method QueueAudioChunk(data: AudioData)
      requires Valid()
      modifies this
      ensures Valid()
      ensures !audioEnabled ==> audioQueue == old(audioQueue) && arrived == old(arrived)
      ensures audioEnabled ==> audioQueue == old(audioQueue) + [data] && arrived == old(arrived) + [data]
      ensures effects == old(effects) && reconnectAttempts == old(reconnectAttempts) && socketOpen == old(socketOpen)
      ensures audioEnabled == old(audioEnabled) && isPlayingAudio == old(isPlayingAudio)
      ensures input == old(input) && taken == old(taken)
    {
      if !audioEnabled {
        return;
      }
      audioQueue := audioQueue + [data];
      arrived := arrived + [data];
      assert taken + audioQueue == old(taken + audioQueue) + [data];
    }

    /** `cleanupAudio()`: the flag is cleared and the animator returns to idle. */
    method CleanupAudio()
      requires Valid()
      modifies this
      ensures Valid()
      ensures !isPlayingAudio
      ensures effects == old(effects) + Animate(hasAnimator, "idle")
      ensures reconnectAttempts == old(reconnectAttempts) && socketOpen == old(socketOpen)
      ensures audioEnabled == old(audioEnabled) && audioQueue == old(audioQueue)
      ensures input == old(input) && arrived == old(arrived) && taken == old(taken)
    {
      isPlayingAudio := false;
      if hasAnimator {
        effects := effects + [AnimatorState("idle")];
      }
    }

    /**
     * `playAudio(chunk.audio, 'mp3', onEnded)` up to the point where the player starts or
     * `onEnded` is called: with audio disabled `onEnded` runs at once; otherwise the flag is
     * set and the animator speaks, and a chunk that does not decode is cleaned up before
     * `onEnded` runs. `onEnded` itself clears the flag; the queue is then processed again.
     */
    method PlayAudio(chunk: AudioData, decodes: AudioData -> bool)
      requires Valid()
      modifies this
      ensures Valid()
      ensures isPlayingAudio <==> audioEnabled && decodes(chunk)
      ensures effects == old(effects) + ChunkEffects(chunk, audioEnabled, hasAnimator, decodes)
      ensures reconnectAttempts == old(reconnectAttempts) && socketOpen == old(socketOpen)
      ensures audioEnabled == old(audioEnabled) && audioQueue == old(audioQueue)
      ensures input == old(input) && arrived == old(arrived) && taken == old(taken)
    {
      if !audioEnabled {
        isPlayingAudio := false;
        return;
      }
      isPlayingAudio := true;
      if hasAnimator {
        effects := effects + [AnimatorState("speaking")];
      }
      if decodes(chunk) {
        effects := effects + [StartPlayback(chunk)];
      } else {
        CleanupAudio();
        isPlayingAudio := false;
      }
    }

    /** `audioQueue.shift()` on a non-empty queue. */
    method TakeHead() returns (chunk: AudioData)
      requires Valid() && audioQueue != []
      modifies this
      ensures Valid()
      ensures chunk == old(audioQueue)[0] && audioQueue == old(audioQueue)[1..] && taken == old(taken) + [chunk]
      ensures effects == old(effects) && isPlayingAudio == old(isPlayingAudio)
      ensures reconnectAttempts == old(reconnectAttempts) && socketOpen == old(socketOpen)
      ensures audioEnabled == old(audioEnabled) && input == old(input) && arrived == old(arrived)
    {
      chunk := audioQueue[0];
      audioQueue := audioQueue[1..];
      taken := taken + [chunk];
      assert taken + audioQueue == old(taken) + ([chunk] + audioQueue);
    }

    /** The head is taken off the queue and handed to `playAudio`. */
    method PlayNext(decodes: AudioData -> bool) returns (chunk: AudioData)
      requires Valid() && audioQueue != []
      modifies this
      ensures Valid()
      ensures chunk == old(audioQueue)[0] && audioQueue == old(audioQueue)[1..] && taken == old(taken) + [chunk]
      ensures isPlayingAudio <==> audioEnabled && decodes(chunk)
      ensures effects == old(effects) + ChunkEffects(chunk, audioEnabled, hasAnimator, decodes)
      ensures reconnectAttempts == old(reconnectAttempts) && socketOpen == old(socketOpen)
      ensures audioEnabled == old(audioEnabled) && input == old(input) && arrived == old(arrived)
    {
      chunk := TakeHead();
      PlayAudio(chunk, decodes);
    }

    /**
     * `processAudioQueue()`: nothing while a chunk plays or when the queue is empty;
     * otherwise the head is taken and played. A chunk that ends at once (audio disabled,
     * or a decode error) re-enters the processing, so chunks are taken in order until one
     * starts playing or the queue runs out.
     */
    method ProcessAudioQueue(decodes: AudioData -> bool)
      requires Valid()
      modifies this
      ensures Valid()
      ensures old(isPlayingAudio) ==>
        audioQueue == old(audioQueue) && effects == old(effects) && isPlayingAudio && taken == old(taken)
      ensures !old(isPlayingAudio) ==>
        var q := old(audioQueue);
        var n := Taken(q, audioEnabled, decodes);
        && audioQueue == q[n..]
        && taken == old(taken) + q[..n]
        && effects == old(effects) + DrainEffects(q[..n], audioEnabled, hasAnimator, decodes)
        && (isPlayingAudio <==> FirstPlayable(q, audioEnabled, decodes) < |q|)
      ensures reconnectAttempts == old(reconnectAttempts) && socketOpen == old(socketOpen)
      ensures audioEnabled == old(audioEnabled) && input == old(input) && arrived == old(arrived)
    {
      if isPlayingAudio || audioQueue == [] {
        return;
      }
      DrainQueue(decodes);
    }

    /** The re-entering part of `processAudioQueue`, once nothing is playing. */
    method DrainQueue(decodes: AudioData -> bool)
      requires Valid() && !isPlayingAudio
      modifies this
      ensures Valid()
      ensures var q := old(audioQueue);
        var n := Taken(q, audioEnabled, decodes);
        && audioQueue == q[n..]
        && taken == old(taken) + q[..n]
        && effects == old(effects) + DrainEffects(q[..n], audioEnabled, hasAnimator, decodes)
        && (isPlayingAudio <==> FirstPlayable(q, audioEnabled, decodes) < |q|)
      ensures reconnectAttempts == old(reconnectAttempts) && socketOpen == old(socketOpen)
      ensures audioEnabled == old(audioEnabled) && input == old(input) && arrived == old(arrived)
    {
      ghost var q := audioQueue;
      ghost var k := FirstPlayable(q, audioEnabled, decodes);
      ghost var i := 0;
      while !isPlayingAudio && audioQueue != []
        invariant Valid()
        invariant 0 <= i <= |q| && i <= k + 1
        invariant audioQueue == q[i..]
        invariant taken == old(taken) + q[..i]
        invariant effects == old(effects) + DrainEffects(q[..i], audioEnabled, hasAnimator, decodes)
        invariant isPlayingAudio <==> i == k + 1
        invariant reconnectAttempts == old(reconnectAttempts) && socketOpen == old(socketOpen)
        invariant audioEnabled == old(audioEnabled) && input == old(input) && arrived == old(arrived)
        decreases |audioQueue|
      {
        PlaysAt(q, audioEnabled, decodes, i);
        assert q[..i + 1] == q[..i] + [q[i]];
        assert q[..i + 1][..i] == q[..i];
        var chunk := PlayNext(decodes);
        i := i + 1;
      }
    }

    /**
     * The player's `onended` for the playing chunk: with nothing left queued the audio is
     * cleaned up; then `onEnded` clears the flag and the next chunk is processed.
     */
    method OnAudioEnded(decodes: AudioData -> bool)
      requires Valid()
      modifies this
      ensures Valid()
      ensures old(audioQueue) == [] ==>
        !isPlayingAudio && audioQueue == [] && effects == old(effects) + Animate(hasAnimator, "idle")
      ensures old(audioQueue) != [] ==>
        var q := old(audioQueue);
        var n := Taken(q, audioEnabled, decodes);
        && audioQueue == q[n..]
        && taken == old(taken) + q[..n]
        && effects == old(effects) + DrainEffects(q[..n], audioEnabled, hasAnimator, decodes)
        && (isPlayingAudio <==> FirstPlayable(q, audioEnabled, decodes) < |q|)
      ensures reconnectAttempts == old(reconnectAttempts) && socketOpen == old(socketOpen)
      ensures audioEnabled == old(audioEnabled) && input == old(input) && arrived == old(arrived)
    {
      if audioQueue == [] {
        CleanupAudio();
      }
      isPlayingAudio := false;
      ProcessAudioQueue(decodes);
    }

    /**
     * `audio.play()` was refused: a note, the audio is cleaned up, then `onEnded` clears
     * the flag and the next chunk is processed.
     */
    method OnPlaybackRejected(decodes: AudioData -> bool)
      requires Valid()
      modifies this
      ensures Valid()
      ensures var q := old(audioQueue);
        var n := Taken(q, audioEnabled, decodes);
        && audioQueue == q[n..]
        && taken == old(taken) + q[..n]
        && effects == old(effects) + [SystemMessage("Audio playback blocked.", "info")] + Animate(hasAnimator, "idle")
             + DrainEffects(q[..n], audioEnabled, hasAnimator, decodes)
        && (isPlayingAudio <==> FirstPlayable(q, audioEnabled, decodes) < |q|)
      ensures reconnectAttempts == old(reconnectAttempts) && socketOpen == old(socketOpen)
      ensures audioEnabled == old(audioEnabled) && input == old(input) && arrived == old(arrived)
    {
      effects := effects + [SystemMessage("Audio playback blocked.", "info")];
      CleanupAudio();
      isPlayingAudio := false;
      ProcessAudioQueue(decodes);
    }

    /**
     * `handleMessage(event)` for a parsed message: states go to `updateState`, replies to
     * the chat, chunks to the queue, errors and notes to system messages; other types are
     * only logged.
     */
    method HandleServerMessage(msg: Incoming)
      requires Valid()
      modifies this
      ensures Valid()
      ensures msg.StateMessage? ==> effects == old(effects) + StateEffects(msg.state, hasAnimator, isPlayingAudio)
      ensures msg.AiResponseMessage? ==> effects == old(effects) + [ChatMessage("assistant", msg.content)]
      ensures msg.AudioChunkMessage? ==>
        effects == old(effects) && audioQueue == old(audioQueue) + (if audioEnabled then [msg.data] else [])
      ensures msg.ErrorMessage? ==> effects == old(effects) + [SystemMessage("Error: " + msg.message, "error")]
      ensures msg.InfoMessage? ==> effects == old(effects) + [SystemMessage(msg.message, "info")]
      ensures msg.OtherMessage? ==> effects == old(effects)
      ensures !msg.AudioChunkMessage? ==> audioQueue == old(audioQueue)
      ensures reconnectAttempts == old(reconnectAttempts) && socketOpen == old(socketOpen)
      ensures audioEnabled == old(audioEnabled) && isPlayingAudio == old(isPlayingAudio) && input == old(input)
    {
      match msg
      case StateMessage(state) =>
        UpdateState(state);
      case AiResponseMessage(content) =>
        effects := effects + [ChatMessage("assistant", content)];
      case AudioChunkMessage(data) =>
        QueueAudioChunk(data);
      case ErrorMessage(message) =>
        effects := effects + [SystemMessage("Error: " + message, "error")];
      case InfoMessage(message) =>
        effects := effects + [SystemMessage(message, "info")];
      case OtherMessage =>
    }
  }
}

=== FILE: wrappers.dfy ===
/**
 * Optional values and error-or-value results.
 *
 * JavaScript's `undefined` becomes `None`; a thrown `Error` becomes `Err` carrying
 * the error's message.
 */
module Wrappers {

  datatype Option<+T> = None | Some(value: T) {
    function GetOr(default: T): T {
      match this
      case Some(v) => v
      case None => default
    }
  }

  datatype Result<+T, +E> = Ok(value: T) | Err(error: E)
}
